=== FILE: README.md ===
# yata sync core in Dafny

A Dafny model of the server side of yata's offline-first synchronisation.
It covers the `/sync` handler and the `/tasks/reorder` handler in
`apps/api/src/index.ts`, and the input schemas in
`packages/core/src/validation.ts`.

The model has four parts.

- **Store** (`store.dfy`). Three tables (tasks, projects, task types) map a
  client-chosen id to a row. Each row carries its fields and the `createdAt`
  and `updatedAt` stamps. A natural-number clock stands in for the database
  time. A create stamps both dates with the current clock and a patch
  restamps `updatedAt`; each then advances the clock by one. `deleteMany`
  does not touch the clock. A create on a taken id raises a unique
  violation. An update on a missing id raises "record not found".
- **Write phase** (`batch.dfy`, `writephase.dfy`). `Plan` flattens the sync
  request's `changes` into store calls in the handler's fixed order: tasks,
  then projects, then task types; inside each kind, created, then updated,
  then deleted. `Run` applies the calls one by one. The first call that
  raises stops the run, and what was written before it stays written,
  because `/sync` uses no transaction.
- **Delta** (`delta.dfy`, `sync.dfy`). `Select` takes every row whose
  `updatedAt` is after the watermark. It splits those rows by whether
  `createdAt` is also after the watermark. `HandleSync` puts the write
  phase and the delta together into the handler.
- **Reorder** (`reorder.dfy`). `Transact` is the `$transaction` of
  `section`/`order` updates, each filtered by `(id, userId)`. `ApplyAll` is
  the same loop written as a method. `HandleReorder` is the handler: 401,
  commit, or roll back.
- **Input rules** (`validation.ts`, modelled in `validation.dfy`). Each zod
  schema becomes a parse function. It yields the normalised value (with
  defaults filled in) or rejects the input. A JSON property is `Absent`,
  `Null` or `Given(v)`.

Some things the model takes as parameters because it cannot compute them:

- The date parser (`new Date(s)`) is the `parse: string -> Timestamp`
  argument of the functions that need it.
- The UUID, e-mail and URL checks form the `Formats` record of predicates.

## Behaviour of the code worth knowing

- The code writes tasks first, then projects, then task types
  (`index.ts:94-185`).
- `/sync` runs without a transaction. A failing call leaves the earlier
  writes in place and answers `{ error: 'Sync failed' }`
  (`Sync.FailedSyncKeepsEarlierWrites`, `Sync.FailedSyncExample`).
- The delta queries have no `userId` filter. `/sync` never reads
  `x-user-id`, so every client receives every user's changed rows.
- The response has no new watermark (`Sync.Response` carries the changes
  only).
- `/sync` validates with its own `syncSchema` (`index.ts:20-86`), not with
  `syncChangesSchema` from `validation.ts`. The two schemas differ:
  - `syncSchema` declares ids as plain strings with no UUID check;
  - its titles and names may be empty;
  - it has no defaults (`urls` is required on create);
  - its patches cannot carry `null`.

  `Batch` models the request `/sync` accepts. `Validation` models the
  shared schemas.

## Model

| member | source | states |
|---|---|---|
| Store.Insert | apps/api/src/index.ts:96-107 | a create succeeds exactly when the id is not stored, else raises a unique violation; the new row has the client id, the given fields and `createdAt == updatedAt == now`; the key set grows by that id only and every other row is unchanged |
| Store.Update | apps/api/src/index.ts:110-127 | an update succeeds exactly when the id is stored, else raises "record not found"; the key set is unchanged, the row keeps its id and `createdAt`, gets the patched fields and `updatedAt == now`; every other row is unchanged |
| Store.DeleteMany | apps/api/src/index.ts:129-133 | a row survives exactly when it was stored and its id is not listed; survivors are unchanged; listed ids that are absent are ignored |
| Store.DeleteManyIdempotent | apps/api/src/index.ts:129-133 | deleting the same id list twice leaves what deleting it once leaves |
| Store.DeleteAbsentIsNoOp | apps/api/src/index.ts:129-133 | deleting ids none of which is stored changes nothing |
| Store.InsertStep | apps/api/src/index.ts:96-107 | a create keeps a valid table valid under the advanced clock and only adds a row stamped now |
| Store.UpdateStep | apps/api/src/index.ts:110-127 | an update keeps a valid table valid under the advanced clock and only restamps one row, keeping its `createdAt` |
| Store.DeleteStep | apps/api/src/index.ts:129-133 | a delete keeps a valid table valid and leaves every remaining row as it was |
| Store.EvolvesTrans | apps/api/src/index.ts:94-185 | "rows are only added or restamped at or after the clock" composes over successive calls |
| Delta.ChangedSince | apps/api/src/index.ts:187-197 | a stored row is returned exactly when its `updatedAt` is after the watermark; nothing else is returned |
| Delta.SelectSince | apps/api/src/index.ts:199-213 | `created` and `updated` are disjoint and together are the changed rows; created rows have `createdAt` after the watermark, updated rows at or before it |
| Delta.Classification | apps/api/src/index.ts:187-213 | every stored row is in exactly one of: left out (`updatedAt <= T`), created (`createdAt > T`), updated (`createdAt <= T < updatedAt`) |
| Delta.CreatedIsComplete | apps/api/src/index.ts:202 | in a valid table, `created` is exactly the set of rows created after the watermark |
| Delta.FullPull | apps/api/src/index.ts:92 | from the epoch, every row of a valid table comes back as created and none as updated |
| Delta.QuietPull | apps/api/src/index.ts:187-213 | a watermark at or after every stamp of a valid table returns nothing |
| Delta.Select | apps/api/src/index.ts:187-213 | for each of the three kinds, a stored row is reported as created exactly when it was created after the watermark, as updated exactly when it existed then and was written since, and no other row is reported |
| Batch.CreateDate | apps/api/src/index.ts:101-104 | a created date is stored exactly when the string is truthy, and is then the parsed string; otherwise null |
| Batch.PatchDate | apps/api/src/index.ts:116-119 | a truthy date string replaces the stored date; a falsy one leaves it; a stored date is never cleared |
| Batch.NewTask | apps/api/src/index.ts:98-105 | the created record carries every sent field unchanged; each date is null exactly when its string is falsy, and is otherwise the parsed string |
| Batch.PatchTask | apps/api/src/index.ts:110-127 | every field present in the patch is written and every field absent keeps its stored value; a truthy date string is written as the parsed date, a falsy one keeps the stored date, so a sync patch never clears a date; the owner never changes |
| Batch.EmptyTaskPatchIsIdentity | apps/api/src/index.ts:110-127 | a sync patch that carries only the id leaves every column of the task as it was |
| Batch.PatchTaskIdempotent | apps/api/src/index.ts:110-127 | applying the same sync patch twice leaves what applying it once leaves |
| Batch.StatusOnlyPatch | apps/api/src/index.ts:110-127 | a sync patch that sets only the status changes the status and no other column |
| Batch.PatchProject | apps/api/src/index.ts:143-152 | a project patch renames when a name is given and otherwise leaves the project; the owner never changes |
| Batch.NewProject | apps/api/src/index.ts:137-141 | a created project's row carries the sent name and owner |
| Batch.PatchTaskType | apps/api/src/index.ts:168-177 | a task-type patch sets the given name and icon only; the owner never changes |
| Batch.NewTaskType | apps/api/src/index.ts:162-166 | a created task type's row carries the sent name, icon and owner |
| WritePhase.KindOps | apps/api/src/index.ts:95-133 | one kind's calls are one create per created record in list order, then one update per patch in list order, then a single `deleteMany` when a deleted list is present; an absent group yields no call |
| WritePhase.Plan | apps/api/src/index.ts:94-185 | the calls of a batch are ordered by kind: task creates, updates, deletes, then the same for projects, then for task types |
| WritePhase.PlanParts | apps/api/src/index.ts:94-185 | the batch is the task calls, followed by the project calls, followed by the task-type calls, each kind's calls kept together |
| WritePhase.ApplyOp | apps/api/src/index.ts:96-183 | a call raises exactly when it creates a taken id or updates a missing one; a successful create inserts the new record's row into its own table and an update rewrites the row through the kind's patch, both stamped with the clock before the call, which then ticks; a delete is `deleteMany` on its own table and leaves the clock; the tables of other kinds are untouched |
| WritePhase.TaskCall | apps/api/src/index.ts:95-134 | a task call raises exactly when it creates a taken id or updates a missing one, changes only the task table and the clock, and writes the row `create`, `update` or `deleteMany` produces |
| WritePhase.ProjectCall | apps/api/src/index.ts:136-159 | a project call raises exactly when it creates a taken id or updates a missing one, changes only the project table and the clock, and writes the row `create`, `update` or `deleteMany` produces |
| WritePhase.TaskTypeCall | apps/api/src/index.ts:161-184 | a task-type call raises exactly when it creates a taken id or updates a missing one, changes only the task-type table and the clock, and writes the row `create`, `update` or `deleteMany` produces |
| WritePhase.ApplyOpStep | apps/api/src/index.ts:96-183 | a successful call keeps the store valid and only adds or restamps rows |
| WritePhase.Run | apps/api/src/index.ts:94-185 | a stopped run names the index of a call in the list and the error that call raises on the store the run leaves; that it stops at the first raising call is `WritePhase.RaiseStopsRun` |
| WritePhase.RunConsFails | apps/api/src/index.ts:94-185 | a first call that raises stops the run at once: it is aborted at index 0 with that call's error and the store untouched |
| WritePhase.RaiseStopsRun | apps/api/src/index.ts:94-185 | a call that raises on the store the calls before it leave stops the run at that index with that call's error, and no later call is made; the store left is the one its predecessors produced |
| WritePhase.RunKeepsValid | apps/api/src/index.ts:94-185 | every run, completed or stopped, keeps the store valid and only adds or restamps rows |
| WritePhase.RunStopsAtFailure | apps/api/src/index.ts:215-217 | a stopped run leaves exactly the store the calls before the failing one produce, and that call raises on it |
| WritePhase.RunAppend | apps/api/src/index.ts:94-185 | running two call lists back to back is running their concatenation, the failure index shifted by the first list's length |
| WritePhase.DuplicateCreate | apps/api/src/index.ts:96-107 | creating the same id twice stops at the second create with a unique violation, and the first create's row stays |
| WritePhase.DeleteTwice | apps/api/src/index.ts:129-133 | two deletes of the same list leave what one leaves |
| Sync.Watermark | apps/api/src/index.ts:92 | an absent or empty `lastPulledAt` gives the epoch; any other is parsed |
| Sync.HandleSync | apps/api/src/index.ts:88-218 | a sync keeps the store valid; without changes it writes nothing; with changes the store it leaves is exactly what running the batch's calls in order leaves, completed or stopped; a delta is always read from that store; the error reply is given exactly when the run of the batch stopped |
| Sync.FailedSyncKeepsEarlierWrites | apps/api/src/index.ts:94-185 | after a failed sync the store is what the calls before the failing one wrote: no rollback |
| Sync.RaisingCallFailsSync | apps/api/src/index.ts:94-217 | a batch call that raises on the store the calls before it leave makes the sync answer `Sync failed`, leaving the store its predecessors produced |
| Sync.FailedSyncExample | apps/api/src/index.ts:215-218 | a batch that creates a task and then updates a missing one answers the error, yet the created task stays stored |
| Sync.SyncReportsOwnWrites | apps/api/src/index.ts:94-213 | with the watermark just before the sync, each kind's changed rows are exactly the rows the sync added or restamped |
| Sync.CatchUp | apps/api/src/index.ts:187-197 | rows stamped at or after the clock are exactly the rows that changed since a valid earlier table |
| Sync.QuietSync | apps/api/src/index.ts:187-213 | a pull without changes whose watermark is at or after every stamp returns empty lists |
| Sync.FirstSync | apps/api/src/index.ts:92 | a client with no or empty `lastPulledAt` receives every row of every table as created |
| Sync.PullFromEpoch | apps/api/src/index.ts:187-213 | after a successful batch, a pull from the epoch reports every stored row as created and none as updated |
| Sync.CreateProjectAndTask | apps/api/src/index.ts:96-141 | in the model, which has no foreign keys, a project and a task naming it, created in one batch, both come back as created to a first-time client, even though the task is written before the project |
| Sync.PatchedTaskIsUpdated | apps/api/src/index.ts:110-127 | a task that existed before the sync and is patched by it comes back as updated, not created, with the patched fields |
| Sync.DeleteSyncIdempotent | apps/api/src/index.ts:129-133 | a delete-only sync removes exactly the listed stored tasks, and repeating it changes nothing more |
| Sync.DuplicateCreateFails | apps/api/src/index.ts:96-107 | creating a task whose id is taken fails the sync and writes nothing |
| Sync.MissingUpdateFails | apps/api/src/index.ts:110-127 | updating a task that does not exist fails the sync and writes nothing |
| Reorder.LastFor | apps/api/src/index.ts:379-389 | the entry that decides a task's place is the last entry of the list with that id: no later entry names the task; there is none exactly when no entry names it |
| Reorder.Reposition | apps/api/src/index.ts:381-387 | one reorder update sets `section` and `order` of the named task and restamps it; every other row and every other field stay |
| Reorder.PlaceTwice | apps/api/src/index.ts:383-386 | two placements in a row leave the second one's section and order |
| Reorder.Transact | apps/api/src/index.ts:379-389 | the `$transaction` fails as a whole or yields a table with exactly the same tasks; when it commits and what it writes are `Reorder.TransactCommits` and `Reorder.TransactPlaces` |
| Reorder.TransactCommits | apps/api/src/index.ts:379-389 | the transaction commits exactly when every listed id is a task of the caller |
| Reorder.TransactPlaces | apps/api/src/index.ts:379-389 | after a commit each task is placed by the last entry for it, and a task not listed is unchanged |
| Reorder.TransactValid | apps/api/src/index.ts:379-389 | a commit keeps the task table valid under the clock advanced once per entry |
| Reorder.ApplyAll | apps/api/src/index.ts:379-389 | the loop over the entries reports success exactly when every listed id is a task of the caller, and then yields the transaction's table |
| Reorder.HandleReorder | apps/api/src/index.ts:370-396 | no user header gives 401 and no change; otherwise success exactly when every listed task is the caller's, with only `section`/`order` of listed tasks changed, and any other outcome is the 500 `Reorder failed` reply; any failure leaves the store as it was; the store stays valid |
| Validation.ParseCreateTask | packages/core/src/validation.ts:45-60 | a task is accepted exactly when the title is non-empty, the owner is a UUID, every URL and optional reference is well-formed and no property is null; missing status, section, order and urls become `todo`, `Inbox`, `0` and `[]`; every given property, dates and references included, is kept as given and every missing optional one is absent |
| Validation.CreateTaskRoundTrip | packages/core/src/validation.ts:45-60 | every task the create schema can yield is accepted back, unchanged, from the input it stands for |
| Validation.CreateTaskNormalisationIdempotent | packages/core/src/validation.ts:45-60 | normalising an accepted task a second time changes nothing |
| Validation.OneBadUrlRejects | packages/core/src/validation.ts:51 | one URL failing the format check rejects the whole task |
| Validation.ParseUpdateTask | packages/core/src/validation.ts:62-76 | a patch is accepted exactly when a given title is non-empty, status, section, order and urls are not null, the URLs are well-formed and the references are null or UUIDs; every property comes out as given, missing stays missing, and for content, dates and references a null is kept as "clear" |
| Validation.UpdateIgnoresUserId | packages/core/src/validation.ts:62-76 | a `userId` in a task patch has no effect on the parse |
| Validation.EmptyTaskUpdateAccepted | packages/core/src/validation.ts:62-76 | the empty patch is accepted and leaves a record as it was |
| Validation.ApplyNullable | packages/core/src/validation.ts:64 | a missing nullable property keeps the stored value, a null clears it, a value replaces it |
| Validation.ApplyTaskUpdate | packages/core/src/validation.ts:62-76 | the meaning the update schema gives a parsed patch under Prisma's rule that `undefined` keeps a column and `null` clears it (no handler in `index.ts` applies this schema; it is not a code path): a given property replaces the stored one, a missing one keeps it, a null clears a nullable column; the owner never changes |
| Validation.ApplyTaskUpdateIdempotent | packages/core/src/validation.ts:62-76 | writing the same parsed patch twice is writing it once |
| Validation.CreatedTaskIsRecord | packages/core/src/validation.ts:25-60 | a task accepted on create and stored under a UUID id satisfies the full task schema |
| Validation.TaskRecordOk | packages/core/src/validation.ts:25-43 | `taskSchema` on a stored row: the id, the owner and every present project, type and parent reference are UUIDs, the title is non-empty and every URL is well-formed; content, status, section, order, the stamps and the dates carry no further rule |
| Validation.UpdateKeepsTaskRecord | packages/core/src/validation.ts:25-43 | a patch accepted by the update schema keeps a record that satisfies the task schema satisfying it |
| Validation.ParseCreateProject | packages/core/src/validation.ts:100-103 | a project is accepted exactly when its name is non-empty and its owner is a UUID |
| Validation.ParseUpdateProject | packages/core/src/validation.ts:105-107 | a project patch is accepted exactly when the name is missing or non-empty |
| Validation.ProjectSchemasKeepRecord | packages/core/src/validation.ts:92-107 | a project created and then patched through the schemas satisfies the full project schema |
| Validation.ProjectRecordOk | packages/core/src/validation.ts:92-98 | `projectSchema` on a stored row: the id and the owner are UUIDs and the name is non-empty |
| Validation.ParseCreateTaskType | packages/core/src/validation.ts:119-123 | a task type is accepted exactly when its name is non-empty, its icon is given (possibly empty) and its owner is a UUID |
| Validation.ParseUpdateTaskType | packages/core/src/validation.ts:125-128 | a task-type patch is accepted exactly when the name is missing or non-empty and the icon is not null |
| Validation.TaskTypeSchemasKeepRecord | packages/core/src/validation.ts:110-128 | a task type created and then patched through the schemas satisfies the full task-type schema |
| Validation.TaskTypeRecordOk | packages/core/src/validation.ts:110-117 | `taskTypeSchema` on a stored row: the id and the owner are UUIDs and the name is non-empty; the icon may be any string |
| Validation.ParseAll | packages/core/src/validation.ts:133 | an array is accepted exactly when every element is, and the result is the elements' values in order |
| Validation.ParseAllAppend | packages/core/src/validation.ts:133 | parsing a concatenation is parsing both parts and concatenating |
| Validation.ParseList | packages/core/src/validation.ts:133 | a missing list becomes `[]`, a null one is rejected |
| Validation.ParseEntry | packages/core/src/validation.ts:134-137 | an `updated` entry is accepted exactly when its id is a UUID and its changes parse, and then carries that id and those parsed changes |
| Validation.ParseGroup | packages/core/src/validation.ts:132-139 | a group is accepted exactly when its three lists are; its `created` and `updated` lists are the element-wise parses of the given lists, in order; missing lists become empty; every deleted id and every patched id is a UUID |
| Validation.ParseOptionalGroup | packages/core/src/validation.ts:132-139 | a missing group is accepted as absent, a null one is rejected |
| Validation.ParseSyncChanges | packages/core/src/validation.ts:131-156 | the changes are accepted exactly when each group is; each group is the parse of its input group with the kind's create and update schemas, and comes out absent exactly when it was missing |
| Validation.NoGroupsAccepted | packages/core/src/validation.ts:131-156 | an object with no groups is accepted and carries no changes |
| Validation.EmptyGroupDefaults | packages/core/src/validation.ts:133-138 | a group with no lists is three empty lists |
| Validation.OneBadTaskRejectsSync | packages/core/src/validation.ts:131-133 | one invalid created task rejects the whole set of changes |
| Validation.AcceptedTasksAreOk | packages/core/src/validation.ts:133 | every task created in accepted changes obeys the create rules |

## Left out

- Hono routing, CORS, the logger, `/health`, the `zValidator` middleware and the server start-up are left out. They route requests but decide nothing about the data.
- The single-record CRUD routes (`index.ts:239-362`, `398-611`) are left out. Each is one store call filtered by `(id, userId)`.
- The 500 reply when the delta reads themselves fail is left out. The model's store reads cannot fail.
- Prisma internals are left out: SQL, foreign keys, cascades and the `@updatedAt` machinery. A delete that a foreign key would block is not modelled as raising. The server's database schema is not part of this model.
- Sync.CreateProjectAndTask: holds only because foreign keys are not modelled. The code creates a batch's tasks before its projects (`index.ts:96-107` runs before `137-141`). If `Task.projectId` carries a foreign key to `Project`, creating the task raises, and the real sync answers `Sync failed` for this batch.
- Requests are handled one at a time. Each `await` of the non-transactional write loop (`index.ts:97-183`) and the gap before the reads (`index.ts:187`) would let another request's writes interleave. `Sync.HandleSync` ("read after the writes") and `Sync.SyncReportsOwnWrites` ("exactly the rows the sync wrote") describe a sync that runs alone.
- Database time is the store clock. A create or patch stamps the clock and advances it by one, so stamps are distinct and increase strictly.
- `Promise.all` over the three reads is modelled as three independent selections of the same store.
- Row order in the delta lists is left open: each list is a set, because the queries have no `orderBy`.
- Parsing date strings and JSON is not modelled. `new Date(s)` is the `parse` parameter, and an Invalid Date is not modelled.
- `order` is an integer, not a floating-point number.
- UUID, e-mail and URL syntax are the predicates of `Validation.Formats`.
- zod's error lists and its type checks are left out. A parse yields a value or nothing, and properties of the wrong JSON type are not represented.
- The reorder request's own schema (`index.ts:364-368`) is taken as already checked.
- The user and task-dependency schemas are left out: users and task dependencies are not among the three synced tables. `syncRequestSchema` and `syncResponseSchema` are left out too: the request schema only adds an optional `lastPulledAt` date around `syncChangesSchema`, and the response schema only lists `taskSchema`, `projectSchema` and `taskTypeSchema` records in `created`/`updated` arrays, all of which are modelled.
- The WatermelonDB client models, the client table configuration and the package re-exports are left out. They belong to the client, not to the sync core.
- The updates of the reorder transaction run one after another in list order. Prisma runs an array of queries in a `$transaction` in that order.

=== FILE: base.dfy ===
/** Shared value types of the model: optional values, results, identifiers
    and the timestamp scale. */
module Base {

  /** A value that may be absent (`undefined` in the source). */
  datatype Option<+T> = None | Some(value: T)

  /** The outcome of an operation that can raise. */
  datatype Result<+T, +E> = Ok(value: T) | Err(error: E) {

    predicate IsFailure()
    {
      Err?
    }

    function PropagateFailure<U>(): Result<U, E>
      requires Err?
    {
      Err(error)
    }

    function Extract(): T
      requires Ok?
    {
      value
    }
  }

  /** A client-generated identifier. The store treats it as an opaque string. */
  type Id = string

  /** Milliseconds since the epoch, as a JavaScript `Date` holds them.
      Dates before 1970 are negative, so this is an `int`. */
  type Timestamp = int

  /** `new Date(0)`. */
  const Epoch: Timestamp := 0

  /** JavaScript truthiness of an optional string: present and non-empty. */
  predicate Truthy(s: Option<string>)
  {
    s.Some? && s.value != ""
  }

  /** The list an optional array stands for when the code skips an absent one. */
  function OrEmpty<T>(o: Option<seq<T>>): seq<T>
  {
    if o.Some? then o.value else []
  }

  /** The head and tail of a concatenation whose first part is not empty. */
  lemma TailOfConcat<T>(xs: seq<T>, ys: seq<T>)
    requires xs != []
    ensures (xs + ys)[0] == xs[0] && (xs + ys)[1..] == xs[1..] + ys
  {
  }

  /** An optional field of a patch applied to the stored value: a present
      value replaces it, an absent one leaves it. */
  function Patch<T>(stored: T, p: Option<T>): (r: T)
    ensures p.None? ==> r == stored
    ensures p.Some? ==> r == p.value
  {
    if p.Some? then p.value else stored
  }
}

=== FILE: batch.dfy ===
/** The change batch a `/sync` request carries, in the shape its request
    schema accepts, and how each created record and each patch becomes the
    columns of a row. Date strings are turned into timestamps by `parse`,
    which stands for `new Date(string)`. */
module Batch {
  import opened Base
  import opened Store

  /** A created task as sent by the client: dates are still strings. */
  datatype TaskCreate = TaskCreate(
    id: Id,
    title: string,
    content: Option<string>,
    status: string,
    section: string,
    order: int,
    urls: seq<string>,
    dueDate: Option<string>,
    whenDate: Option<string>,
    startedDate: Option<string>,
    completedDate: Option<string>,
    userId: Id,
    projectId: Option<Id>,
    typeId: Option<Id>,
    parentId: Option<Id>)

  /** An updated task: the id and the fields present in the patch. */
  datatype TaskUpdate = TaskUpdate(
    id: Id,
    title: Option<string>,
    content: Option<string>,
    status: Option<string>,
    section: Option<string>,
    order: Option<int>,
    urls: Option<seq<string>>,
    dueDate: Option<string>,
    whenDate: Option<string>,
    startedDate: Option<string>,
    completedDate: Option<string>,
    projectId: Option<Id>,
    typeId: Option<Id>,
    parentId: Option<Id>)

  datatype ProjectCreate = ProjectCreate(id: Id, name: string, userId: Id)
  datatype ProjectUpdate = ProjectUpdate(id: Id, name: Option<string>)

  datatype TaskTypeCreate = TaskTypeCreate(id: Id, name: string, icon: string, userId: Id)
  datatype TaskTypeUpdate = TaskTypeUpdate(id: Id, name: Option<string>, icon: Option<string>)

  /** One entity kind's changes; each list may be missing. */
  datatype ChangeSet<C, U> = ChangeSet(
    created: Option<seq<C>>,
    updated: Option<seq<U>>,
    deleted: Option<seq<Id>>)

  datatype SyncChanges = SyncChanges(
    tasks: Option<ChangeSet<TaskCreate, TaskUpdate>>,
    projects: Option<ChangeSet<ProjectCreate, ProjectUpdate>>,
    taskTypes: Option<ChangeSet<TaskTypeCreate, TaskTypeUpdate>>)

  datatype SyncRequest = SyncRequest(lastPulledAt: Option<string>, changes: Option<SyncChanges>)

  /** A date of a created record: parsed when truthy, `null` otherwise. */
  function CreateDate(s: Option<string>, parse: string -> Timestamp): (r: Option<Timestamp>)
    ensures r.Some? <==> Truthy(s)
    ensures r.Some? ==> r.value == parse(s.value)
  {
    if Truthy(s) then Some(parse(s.value)) else None
  }

  /** A date of a patch: parsed when truthy; a falsy one is `undefined`, so the
      stored date stays. */
  function PatchDate(stored: Option<Timestamp>, s: Option<string>, parse: string -> Timestamp): (r: Option<Timestamp>)
    ensures Truthy(s) ==> r == Some(parse(s.value))
    ensures !Truthy(s) ==> r == stored
    ensures stored.Some? ==> r.Some?
  {
    if Truthy(s) then Some(parse(s.value)) else stored
  }

  /** An optional column of a patch: a value present is stored, an absent
      one leaves the stored value, null or not. */
  function PatchOptional<T>(stored: Option<T>, p: Option<T>): (r: Option<T>)
    ensures p.None? ==> r == stored
    ensures p.Some? ==> r == Some(p.value)
  {
    if p.Some? then p else stored
  }

  /** The columns `task.create` writes: the record as sent, with each date
      parsed or null. An absent content or reference is stored as null. */
  function NewTask(c: TaskCreate, parse: string -> Timestamp): (f: TaskFields)
    ensures f.title == c.title && f.content == c.content && f.status == c.status
    ensures f.section == c.section && f.order == c.order && f.urls == c.urls
    ensures f.userId == c.userId && f.projectId == c.projectId
    ensures f.typeId == c.typeId && f.parentId == c.parentId
    ensures f.dueDate.None? <==> !Truthy(c.dueDate)
    ensures f.whenDate.None? <==> !Truthy(c.whenDate)
    ensures f.startedDate.None? <==> !Truthy(c.startedDate)
    ensures f.completedDate.None? <==> !Truthy(c.completedDate)
    ensures Truthy(c.dueDate) ==> f.dueDate == Some(parse(c.dueDate.value))
    ensures Truthy(c.whenDate) ==> f.whenDate == Some(parse(c.whenDate.value))
    ensures Truthy(c.startedDate) ==> f.startedDate == Some(parse(c.startedDate.value))
    ensures Truthy(c.completedDate) ==> f.completedDate == Some(parse(c.completedDate.value))
  {
    TaskFields(
      c.title, c.content, c.status, c.section, c.order, c.urls,
      CreateDate(c.dueDate, parse), CreateDate(c.whenDate, parse),
      CreateDate(c.startedDate, parse), CreateDate(c.completedDate, parse),
      c.userId, c.projectId, c.typeId, c.parentId)
  }

  /** The sparse patch `task.update` writes: fields present replace the
      stored ones, dates only when truthy; `userId` is not patchable. */
  function PatchTask(f: TaskFields, u: TaskUpdate, parse: string -> Timestamp): (r: TaskFields)
    ensures r.userId == f.userId
    ensures u.title.None? ==> r.title == f.title
    ensures u.content.None? ==> r.content == f.content
    ensures u.status.None? ==> r.status == f.status
    ensures u.section.None? ==> r.section == f.section
    ensures u.order.None? ==> r.order == f.order
    ensures u.urls.None? ==> r.urls == f.urls
    ensures u.projectId.None? ==> r.projectId == f.projectId
    ensures u.typeId.None? ==> r.typeId == f.typeId
    ensures u.parentId.None? ==> r.parentId == f.parentId
    ensures !Truthy(u.dueDate) ==> r.dueDate == f.dueDate
    ensures !Truthy(u.whenDate) ==> r.whenDate == f.whenDate
    ensures !Truthy(u.startedDate) ==> r.startedDate == f.startedDate
    ensures !Truthy(u.completedDate) ==> r.completedDate == f.completedDate
    // a field present in the patch is written
    ensures u.title.Some? ==> r.title == u.title.value
    ensures u.content.Some? ==> r.content == u.content
    ensures u.status.Some? ==> r.status == u.status.value
    ensures u.section.Some? ==> r.section == u.section.value
    ensures u.order.Some? ==> r.order == u.order.value
    ensures u.urls.Some? ==> r.urls == u.urls.value
    ensures u.projectId.Some? ==> r.projectId == u.projectId
    ensures u.typeId.Some? ==> r.typeId == u.typeId
    ensures u.parentId.Some? ==> r.parentId == u.parentId
    ensures Truthy(u.dueDate) ==> r.dueDate == Some(parse(u.dueDate.value))
    ensures Truthy(u.whenDate) ==> r.whenDate == Some(parse(u.whenDate.value))
    ensures Truthy(u.startedDate) ==> r.startedDate == Some(parse(u.startedDate.value))
    ensures Truthy(u.completedDate) ==> r.completedDate == Some(parse(u.completedDate.value))
    // a sync patch can set a date but never clear one
    ensures f.dueDate.Some? ==> r.dueDate.Some?
    ensures f.whenDate.Some? ==> r.whenDate.Some?
    ensures f.startedDate.Some? ==> r.startedDate.Some?
    ensures f.completedDate.Some? ==> r.completedDate.Some?
  {
    TaskFields(
      Patch(f.title, u.title), PatchOptional(f.content, u.content), Patch(f.status, u.status),
      Patch(f.section, u.section), Patch(f.order, u.order), Patch(f.urls, u.urls),
      PatchDate(f.dueDate, u.dueDate, parse), PatchDate(f.whenDate, u.whenDate, parse),
      PatchDate(f.startedDate, u.startedDate, parse), PatchDate(f.completedDate, u.completedDate, parse),
      f.userId, PatchOptional(f.projectId, u.projectId), PatchOptional(f.typeId, u.typeId),
      PatchOptional(f.parentId, u.parentId))
  }

  /** The patch that carries nothing but the id. */
  function EmptyTaskUpdate(id: Id): TaskUpdate
  {
    TaskUpdate(id, None, None, None, None, None, None, None, None, None, None, None, None, None)
  }

  /** A patch without fields leaves every column as it was. */
  lemma EmptyTaskPatchIsIdentity(f: TaskFields, id: Id, parse: string -> Timestamp)
    ensures PatchTask(f, EmptyTaskUpdate(id), parse) == f
  {
  }

  /** Applying the same patch twice is applying it once. */
  lemma PatchTaskIdempotent(f: TaskFields, u: TaskUpdate, parse: string -> Timestamp)
    ensures PatchTask(PatchTask(f, u, parse), u, parse) == PatchTask(f, u, parse)
  {
  }

  /** Setting only the status changes the status and nothing else. */
  lemma StatusOnlyPatch(f: TaskFields, id: Id, status: string, parse: string -> Timestamp)
    ensures PatchTask(f, EmptyTaskUpdate(id).(status := Some(status)), parse) == f.(status := status)
  {
  }

  function NewProject(c: ProjectCreate): (f: ProjectFields)
    ensures f.name == c.name && f.userId == c.userId
  {
    ProjectFields(c.name, c.userId)
  }

  /** A project patch may rename; the owner never changes. */
  function PatchProject(f: ProjectFields, u: ProjectUpdate): (r: ProjectFields)
    ensures r.userId == f.userId
    ensures u.name.None? ==> r == f
    ensures u.name.Some? ==> r.name == u.name.value
  {
    f.(name := Patch(f.name, u.name))
  }

  function NewTaskType(c: TaskTypeCreate): (f: TaskTypeFields)
    ensures f.name == c.name && f.icon == c.icon && f.userId == c.userId
  {
    TaskTypeFields(c.name, c.icon, c.userId)
  }

  /** A task-type patch may change name and icon; the owner never changes. */
  function PatchTaskType(f: TaskTypeFields, u: TaskTypeUpdate): (r: TaskTypeFields)
    ensures r.userId == f.userId
    ensures u.name.None? ==> r.name == f.name
    ensures u.name.Some? ==> r.name == u.name.value
    ensures u.icon.None? ==> r.icon == f.icon
    ensures u.icon.Some? ==> r.icon == u.icon.value
  {
    f.(name := Patch(f.name, u.name), icon := Patch(f.icon, u.icon))
  }
}

=== FILE: delta.dfy ===
/** The read phase of a sync: every row changed after the watermark, split by
    whether it was also created after it. */
module Delta {
  import opened Base
  import opened Store

  /** The rows one `findMany({ where: { updatedAt: { gt: T } } })` returns.
      The query has no `orderBy`, so the row order is left open and the
      result is a set. */
  function ChangedSince<F(==)>(t: Table<F>, T: Timestamp): (r: set<Row<F>>)
    ensures forall id | id in t :: t[id] in r <==> t[id].updatedAt > T
    ensures r <= t.Values
    ensures forall row | row in r :: row.updatedAt > T
  {
    set id | id in t && t[id].updatedAt > T :: t[id]
  }

  /** One entity kind's part of the response. */
  datatype Split<F(==)> = Split(created: set<Row<F>>, updated: set<Row<F>>)

  /** The two `filter` calls over the changed rows. */
  function SelectSince<F(==)>(t: Table<F>, T: Timestamp): (r: Split<F>)
    ensures r.created !! r.updated
    ensures r.created + r.updated == ChangedSince(t, T)
    ensures forall row | row in r.created :: row.createdAt > T && row.updatedAt > T
    ensures forall row | row in r.updated :: row.createdAt <= T < row.updatedAt
  {
    var changed := ChangedSince(t, T);
    Split(set row | row in changed && row.createdAt > T,
          set row | row in changed && row.createdAt <= T)
  }

  /** The response's `changes`: the same watermark for all three kinds, and no
      restriction to any user. */
  datatype Changes = Changes(
    tasks: Split<TaskFields>,
    projects: Split<ProjectFields>,
    taskTypes: Split<TaskTypeFields>)

  /** The response's `changes`: for each kind, a stored row is reported as
      created exactly when it was created after `T`, as updated exactly when
      it existed at `T` and was written since, and nothing else is reported. */
  function Select(s: Store, T: Timestamp): (r: Changes)
    ensures forall id | id in s.tasks :: s.tasks[id] in r.tasks.created <==> T < s.tasks[id].createdAt && T < s.tasks[id].updatedAt
    ensures forall id | id in s.tasks :: s.tasks[id] in r.tasks.updated <==> s.tasks[id].createdAt <= T < s.tasks[id].updatedAt
    ensures r.tasks.created + r.tasks.updated <= s.tasks.Values
    ensures forall id | id in s.projects :: s.projects[id] in r.projects.created <==> T < s.projects[id].createdAt && T < s.projects[id].updatedAt
    ensures forall id | id in s.projects :: s.projects[id] in r.projects.updated <==> s.projects[id].createdAt <= T < s.projects[id].updatedAt
    ensures r.projects.created + r.projects.updated <= s.projects.Values
    ensures forall id | id in s.taskTypes :: s.taskTypes[id] in r.taskTypes.created <==> T < s.taskTypes[id].createdAt && T < s.taskTypes[id].updatedAt
    ensures forall id | id in s.taskTypes :: s.taskTypes[id] in r.taskTypes.updated <==> s.taskTypes[id].createdAt <= T < s.taskTypes[id].updatedAt
    ensures r.taskTypes.created + r.taskTypes.updated <= s.taskTypes.Values
  {
    Changes(SelectSince(s.tasks, T), SelectSince(s.projects, T), SelectSince(s.taskTypes, T))
  }

  /** Every row of a valid table falls in exactly one class: left out when it
      has not been written since `T`, `created` when it was created after
      `T`, `updated` when it existed at `T` and was written since. */
  lemma Classification<F>(t: Table<F>, clock: nat, T: Timestamp, id: Id)
    requires TableValid(t, clock)
    requires id in t
    ensures var r := SelectSince(t, T);
      && (t[id] in r.created <==> t[id].createdAt > T)
      && (t[id] in r.updated <==> t[id].createdAt <= T < t[id].updatedAt)
      && (t[id] !in r.created + r.updated <==> t[id].updatedAt <= T)
  {
  }

  /** In a valid table `created` is exactly the rows created after `T`: the
      `updatedAt` bound of the query loses none of them. */
  lemma CreatedIsComplete<F>(t: Table<F>, clock: nat, T: Timestamp)
    requires TableValid(t, clock)
    ensures SelectSince(t, T).created == set id | id in t && t[id].createdAt > T :: t[id]
  {
    var r := SelectSince(t, T);
    forall row | row in set id | id in t && t[id].createdAt > T :: t[id]
      ensures row in r.created
    {
      assert row in ChangedSince(t, T);
    }
  }

  /** Pulling from the epoch reports every row of a valid table as created. */
  lemma FullPull<F>(t: Table<F>, clock: nat)
    requires TableValid(t, clock)
    ensures SelectSince(t, Epoch).created == t.Values
    ensures SelectSince(t, Epoch).updated == {}
  {
    var r := SelectSince(t, Epoch);
    forall row | row in t.Values ensures row in r.created {
      var id :| id in t && t[id] == row;
      assert row in ChangedSince(t, Epoch);
    }
  }

  /** A watermark at or after every stamp of a valid table yields nothing. */
  lemma QuietPull<F>(t: Table<F>, clock: nat, T: Timestamp)
    requires TableValid(t, clock)
    requires clock <= T + 1
    ensures SelectSince(t, T) == Split({}, {})
  {
    assert ChangedSince(t, T) == {};
  }
}

=== FILE: reorder.dfy ===
/** The `/tasks/reorder` handler: inside one transaction, set `section` and
    `order` of each listed task the caller owns. One missing or foreign task
    rolls the whole list back. */
module Reorder {
  import opened Base
  import opened Store

  datatype ReorderItem = ReorderItem(id: Id, section: string, order: int)

  /** 401 `User ID required`, 500 `Reorder failed`, or `{ success: true }`. */
  datatype ReorderResponse = Unauthorized | ReorderFailed | Reordered

  /** The last entry for `id`: updates run in list order, so a later entry
      for the same task overwrites an earlier one. */
  function LastFor(items: seq<ReorderItem>, id: Id): (r: Option<ReorderItem>)
    ensures r.Some? ==> r.value in items && r.value.id == id
    ensures r.None? <==> forall i | 0 <= i < |items| :: items[i].id != id
    ensures r.Some? ==> exists i | 0 <= i < |items| :: items[i] == r.value && forall j | i < j < |items| :: items[j].id != id
    decreases |items|
  {
    if items == [] then None
    else
      var later := LastFor(items[1..], id);
      if later.Some? then later
      else if items[0].id == id then Some(items[0])
      else None
  }

  /** `where: { id, userId }` matches. */
  predicate Owned(tasks: Table<TaskFields>, userId: Id, id: Id)
  {
    id in tasks && tasks[id].fields.userId == userId
  }

  /** The data of one update: `section` and `order`, nothing else. */
  function Place(f: TaskFields, it: ReorderItem): TaskFields
  {
    f.(section := it.section, order := it.order)
  }

  /** How one task row ends up: untouched when not listed, otherwise with the
      last listed section and order, restamped at or after `from`. */
  predicate Placed(before: Row<TaskFields>, after: Row<TaskFields>, last: Option<ReorderItem>, from: nat)
  {
    match last
    case None => after == before
    case Some(it) =>
      && after.id == before.id
      && after.createdAt == before.createdAt
      && after.fields == Place(before.fields, it)
      && from <= after.updatedAt
  }

  /** One `task.update` of the transaction, stamped `clock`. */
  function Reposition(tasks: Table<TaskFields>, it: ReorderItem, clock: nat): (r: Table<TaskFields>)
    requires it.id in tasks
    ensures r.Keys == tasks.Keys
    ensures r[it.id].fields == Place(tasks[it.id].fields, it) && r[it.id].updatedAt == clock
    ensures r[it.id].id == tasks[it.id].id && r[it.id].createdAt == tasks[it.id].createdAt
    ensures forall k | k in tasks && k != it.id :: r[k] == tasks[k]
    ensures TableValid(tasks, clock) ==> TableValid(r, clock + 1)
  {
    UpdateStep(tasks, it.id, f => Place(f, it), clock);
    Update(tasks, it.id, f => Place(f, it), clock).value
  }

  /** Stamping with the same section and order twice: the second one wins. */
  lemma PlaceTwice(f: TaskFields, a: ReorderItem, b: ReorderItem)
    ensures Place(Place(f, a), b) == Place(f, b)
  {
  }

  /** The `$transaction` of the listed updates, in list order with one clock
      tick each: the final task table, or nothing when a listed task is
      missing or owned by someone else. */
  function Transact(tasks: Table<TaskFields>, user: Id, items: seq<ReorderItem>, clock: nat)
    : (r: Option<Table<TaskFields>>)
    ensures r.Some? ==> r.value.Keys == tasks.Keys
    decreases |items|
  {
    if items == [] then Some(tasks)
    else if !Owned(tasks, user, items[0].id) then None
    else Transact(Reposition(tasks, items[0], clock), user, items[1..], clock + 1)
  }

  /** The transaction commits exactly when every listed task exists and
      belongs to the user: one foreign or missing id rolls back the lot. */
  lemma {:induction false} TransactCommits(tasks: Table<TaskFields>, user: Id, items: seq<ReorderItem>, clock: nat)
    ensures Transact(tasks, user, items, clock).Some? <==> forall j | 0 <= j < |items| :: Owned(tasks, user, items[j].id)
    decreases |items|
  {
    if items != [] && Owned(tasks, user, items[0].id) {
      var next := Reposition(tasks, items[0], clock);
      TransactCommits(next, user, items[1..], clock + 1);
      assert forall j | 0 <= j < |items| :: Owned(next, user, items[j].id) <==> Owned(tasks, user, items[j].id);
      assert forall j | 0 <= j < |items| - 1 :: items[1..][j] == items[j + 1];
    }
  }

  /** After the transaction every row is placed by the last entry for it. */
  lemma {:induction false} TransactPlaces(tasks: Table<TaskFields>, user: Id, items: seq<ReorderItem>, clock: nat)
    requires Transact(tasks, user, items, clock).Some?
    ensures var r := Transact(tasks, user, items, clock).value;
      forall id | id in tasks :: Placed(tasks[id], r[id], LastFor(items, id), clock)
    decreases |items|
  {
    if items != [] {
      var it := items[0];
      var next := Reposition(tasks, it, clock);
      var r := Transact(tasks, user, items, clock).value;
      assert r == Transact(next, user, items[1..], clock + 1).value;
      TransactPlaces(next, user, items[1..], clock + 1);
      forall id | id in tasks
        ensures Placed(tasks[id], r[id], LastFor(items, id), clock)
      {
        var later := LastFor(items[1..], id);
        if later.Some? {
          if id == it.id {
            PlaceTwice(tasks[id].fields, it, later.value);
          }
        }
      }
    }
  }

  /** The transaction keeps a valid table valid under the advanced clock. */
  lemma {:induction false} TransactValid(tasks: Table<TaskFields>, user: Id, items: seq<ReorderItem>, clock: nat)
    requires Transact(tasks, user, items, clock).Some?
    requires TableValid(tasks, clock)
    ensures TableValid(Transact(tasks, user, items, clock).value, clock + |items|)
    decreases |items|
  {
    if items != [] {
      TransactValid(Reposition(tasks, items[0], clock), user, items[1..], clock + 1);
    }
  }

  /** The transaction body run on a working copy; `ok` is false as soon as
      one listed task is missing or foreign, and the copy is then dropped. */
  method ApplyAll(start: Table<TaskFields>, user: Id, items: seq<ReorderItem>, clock0: nat)
    returns (ok: bool, tasks: Table<TaskFields>, clock: nat)
    ensures ok <==> forall i | 0 <= i < |items| :: Owned(start, user, items[i].id)
    ensures ok ==> Transact(start, user, items, clock0) == Some(tasks) && clock == clock0 + |items|
  {
    tasks, clock := start, clock0;
    var i := 0;
    while i < |items|
      invariant 0 <= i <= |items|
      invariant clock == clock0 + i
      invariant Transact(start, user, items, clock0) == Transact(tasks, user, items[i..], clock)
    {
      var it := items[i];
      assert items[i..][0] == it && items[i..][1..] == items[i + 1..];
      if !Owned(tasks, user, it.id) {
        TransactCommits(start, user, items, clock0);
        return false, start, clock0;
      }
      tasks := Reposition(tasks, it, clock);
      clock := clock + 1;
      i := i + 1;
    }
    assert items[i..] == [];
    TransactCommits(start, user, items, clock0);
    ok := true;
  }

  /** What a committed transaction leaves: the same keys, every row placed
      by its last entry, and a valid table under the advanced clock. */
  lemma TransactOutcome(start: Table<TaskFields>, user: Id, items: seq<ReorderItem>, clock0: nat)
    requires Transact(start, user, items, clock0).Some?
    ensures var tasks := Transact(start, user, items, clock0).value;
      && tasks.Keys == start.Keys
      && (forall id | id in start :: Placed(start[id], tasks[id], LastFor(items, id), clock0))
      && (TableValid(start, clock0) ==> TableValid(tasks, clock0 + |items|))
  {
    TransactPlaces(start, user, items, clock0);
    if TableValid(start, clock0) {
      TransactValid(start, user, items, clock0);
    }
  }

  method HandleReorder(s: Store, userHeader: Option<string>, items: seq<ReorderItem>)
    returns (s': Store, resp: ReorderResponse)
    ensures !Truthy(userHeader) ==> resp == Unauthorized && s' == s
    ensures Truthy(userHeader) ==>
      (resp == Reordered <==> forall i | 0 <= i < |items| :: Owned(s.tasks, userHeader.value, items[i].id))
    ensures resp != Reordered ==> s' == s
    ensures Truthy(userHeader) && resp != Reordered ==> resp == ReorderFailed
    ensures resp == Reordered ==>
      && s'.projects == s.projects && s'.taskTypes == s.taskTypes
      && s'.tasks.Keys == s.tasks.Keys
      && forall id | id in s.tasks :: Placed(s.tasks[id], s'.tasks[id], LastFor(items, id), s.clock)
    ensures Valid(s) ==> Valid(s')
  {
    if !Truthy(userHeader) {
      return s, Unauthorized;
    }
    var ok, tasks, clock := ApplyAll(s.tasks, userHeader.value, items, s.clock);
    if !ok {
      return s, ReorderFailed;
    }
    TransactOutcome(s.tasks, userHeader.value, items, s.clock);
    s' := s.(tasks := tasks, clock := clock);
    if Valid(s) {
      ValidLater(s.projects, s.clock, clock);
      ValidLater(s.taskTypes, s.clock, clock);
    }
    resp := Reordered;
  }
}

=== FILE: store.dfy ===
/** The entity store: three tables of rows keyed by their client id, and the
    clock the store stamps `createdAt` and `updatedAt` from. */
module Store {
  import opened Base

  /** The columns of a task row other than its id and timestamps. */
  datatype TaskFields = TaskFields(
    title: string,
    content: Option<string>,
    status: string,
    section: string,
    order: int,
    urls: seq<string>,
    dueDate: Option<Timestamp>,
    whenDate: Option<Timestamp>,
    startedDate: Option<Timestamp>,
    completedDate: Option<Timestamp>,
    userId: Id,
    projectId: Option<Id>,
    typeId: Option<Id>,
    parentId: Option<Id>)

  /** The columns of a project row other than its id and timestamps. */
  datatype ProjectFields = ProjectFields(name: string, userId: Id)

  /** The columns of a task-type row other than its id and timestamps. */
  datatype TaskTypeFields = TaskTypeFields(name: string, icon: string, userId: Id)

  /** A stored row. The timestamps are assigned by the store, never by the client. */
  datatype Row<F> = Row(id: Id, fields: F, createdAt: nat, updatedAt: nat)

  type Table<F> = map<Id, Row<F>>

  /** The whole store. `clock` is the stamp the next write receives; every
      create or update uses it and then advances it by one. */
  datatype Store = Store(
    tasks: Table<TaskFields>,
    projects: Table<ProjectFields>,
    taskTypes: Table<TaskTypeFields>,
    clock: nat)

  /** What the store raises: a unique-key clash on create, a missing row on update. */
  datatype DbError = UniqueViolation(id: Id) | RecordNotFound(id: Id)

  /** Every row sits under its own id, was stamped after the epoch, was not
      updated before it was created, and was stamped before the current clock. */
  predicate TableValid<F>(t: Table<F>, clock: nat)
  {
    forall id | id in t :: t[id].id == id && 0 < t[id].createdAt <= t[id].updatedAt < clock
  }

  /** The clock starts after the epoch, and every table is valid under it. */
  predicate Valid(s: Store)
  {
    && 0 < s.clock
    && TableValid(s.tasks, s.clock)
    && TableValid(s.projects, s.clock)
    && TableValid(s.taskTypes, s.clock)
  }

  /** `create`: insert a row under a fresh id, stamped `now` twice. */
  function Insert<F>(t: Table<F>, id: Id, f: F, now: nat): (r: Result<Table<F>, DbError>)
    ensures r.Ok? <==> id !in t
    ensures r.Err? ==> r.error == UniqueViolation(id)
    ensures r.Ok? ==> r.value.Keys == t.Keys + {id}
    ensures r.Ok? ==> r.value[id] == Row(id, f, now, now)
    ensures r.Ok? ==> forall k | k in t :: r.value[k] == t[k]
  {
    if id in t then Err(UniqueViolation(id)) else Ok(t[id := Row(id, f, now, now)])
  }

  /** `update`: rewrite the fields of an existing row through `patch` and
      stamp it `now`; its id and `createdAt` stay. */
  function Update<F>(t: Table<F>, id: Id, patch: F -> F, now: nat): (r: Result<Table<F>, DbError>)
    ensures r.Ok? <==> id in t
    ensures r.Err? ==> r.error == RecordNotFound(id)
    ensures r.Ok? ==> r.value.Keys == t.Keys
    ensures r.Ok? ==> r.value[id].id == t[id].id && r.value[id].createdAt == t[id].createdAt
    ensures r.Ok? ==> r.value[id].fields == patch(t[id].fields) && r.value[id].updatedAt == now
    ensures r.Ok? ==> forall k | k in t && k != id :: r.value[k] == t[k]
  {
    if id !in t then Err(RecordNotFound(id))
    else
      var row := t[id];
      Ok(t[id := row.(fields := patch(row.fields), updatedAt := now)])
  }

  /** `deleteMany` with `id in ids`: drops the listed rows that exist and
      ignores the rest; it never raises. */
  function DeleteMany<F>(t: Table<F>, ids: seq<Id>): (r: Table<F>)
    ensures forall k :: k in r <==> k in t && k !in ids
    ensures forall k | k in r :: r[k] == t[k]
  {
    map k | k in t && k !in ids :: t[k]
  }

  /** Deleting a list a second time changes nothing. */
  lemma DeleteManyIdempotent<F>(t: Table<F>, ids: seq<Id>)
    ensures DeleteMany(DeleteMany(t, ids), ids) == DeleteMany(t, ids)
  {
    var once := DeleteMany(t, ids);
    assert DeleteMany(once, ids).Keys == once.Keys;
  }

  /** Deleting ids that are all absent leaves the table as it was. */
  lemma DeleteAbsentIsNoOp<F>(t: Table<F>, ids: seq<Id>)
    requires forall i | 0 <= i < |ids| :: ids[i] !in t
    ensures DeleteMany(t, ids) == t
  {
    assert DeleteMany(t, ids).Keys == t.Keys;
  }

  /** Each row of `after` is a row of `before` left alone, or was written at
      or after `clock`; a row under a new id was also created then, and a
      rewritten row kept its `createdAt` unless it was created then too. */
  predicate Evolves<F(==)>(before: Table<F>, after: Table<F>, clock: nat)
  {
    forall id | id in after ::
      || (id in before && after[id] == before[id])
      || (&& clock <= after[id].updatedAt
          && ((id in before && after[id].createdAt == before[id].createdAt) || clock <= after[id].createdAt))
  }

  lemma EvolvesTrans<F>(a: Table<F>, b: Table<F>, c: Table<F>, c1: nat, c2: nat)
    requires Evolves(a, b, c1) && Evolves(b, c, c2) && c1 <= c2
    ensures Evolves(a, c, c1)
  {
  }

  /** A successful create at `now` keeps the table valid under the advanced
      clock, and only adds a row created at `now`. */
  lemma InsertStep<F>(t: Table<F>, id: Id, f: F, now: nat)
    requires 0 < now && TableValid(t, now)
    requires Insert(t, id, f, now).Ok?
    ensures TableValid(Insert(t, id, f, now).value, now + 1)
    ensures Evolves(t, Insert(t, id, f, now).value, now)
  {
  }

  /** A successful update at `now` keeps the table valid under the advanced
      clock, and only restamps one row. */
  lemma UpdateStep<F>(t: Table<F>, id: Id, patch: F -> F, now: nat)
    requires Update(t, id, patch, now).Ok?
    ensures TableValid(t, now) ==> TableValid(Update(t, id, patch, now).value, now + 1)
    ensures Evolves(t, Update(t, id, patch, now).value, now)
  {
  }

  /** A delete keeps the table valid and leaves every remaining row alone. */
  lemma DeleteStep<F>(t: Table<F>, ids: seq<Id>, clock: nat)
    ensures TableValid(t, clock) ==> TableValid(DeleteMany(t, ids), clock)
    ensures Evolves(t, DeleteMany(t, ids), clock)
  {
  }

  /** Advancing the clock keeps a table valid. */
  lemma ValidLater<F>(t: Table<F>, c1: nat, c2: nat)
    requires TableValid(t, c1) && c1 <= c2
    ensures TableValid(t, c2)
  {
  }
}

=== FILE: sync.dfy ===
/** The `/sync` handler: apply the batch, then read back everything changed
    after the client's watermark. Any exception in either phase becomes the
    error response, with whatever the batch had already written left in the
    store. */
module Sync {
  import opened Base
  import opened Store
  import opened Batch
  import opened Delta
  import opened WritePhase

  /** `lastPulledAt ? new Date(lastPulledAt) : new Date(0)`. */
  function Watermark(lastPulledAt: Option<string>, parse: string -> Timestamp): (T: Timestamp)
    ensures !Truthy(lastPulledAt) ==> T == Epoch
    ensures Truthy(lastPulledAt) ==> T == parse(lastPulledAt.value)
  {
    if Truthy(lastPulledAt) then parse(lastPulledAt.value) else Epoch
  }

  /** The JSON body: the delta, or `{ error: 'Sync failed' }` with status 500.
      No new watermark is part of the reply. */
  datatype Response = Pulled(changes: Changes) | SyncFailed

  datatype SyncResult = SyncResult(store: Store, response: Response)

  function HandleSync(s: Store, req: SyncRequest, parse: string -> Timestamp): (r: SyncResult)
    ensures Valid(s) ==> Valid(r.store)
    ensures StoreEvolves(s, r.store)
    ensures req.changes.None? ==> r.store == s && r.response.Pulled?
    ensures req.changes.Some? ==> r.store == Run(s, Plan(req.changes.value), parse).store
    ensures r.response.Pulled? ==> r.response.changes == Select(r.store, Watermark(req.lastPulledAt, parse))
    ensures r.response.SyncFailed? <==> req.changes.Some? && Run(s, Plan(req.changes.value), parse).Aborted?
  {
    var T := Watermark(req.lastPulledAt, parse);
    if req.changes.None? then
      Untouched(s.tasks, s.clock, s.clock);
      Untouched(s.projects, s.clock, s.clock);
      Untouched(s.taskTypes, s.clock, s.clock);
      SyncResult(s, Pulled(Select(s, T)))
    else
      RunKeepsValid(s, Plan(req.changes.value), parse);
      match Run(s, Plan(req.changes.value), parse)
      case Applied(t) => SyncResult(t, Pulled(Select(t, T)))
      case Aborted(t, _, _) => SyncResult(t, SyncFailed)
  }

  /** A failed sync is not rolled back: the store it leaves is the one the
      operations before the failing call produced. */
  lemma FailedSyncKeepsEarlierWrites(s: Store, req: SyncRequest, parse: string -> Timestamp)
    requires HandleSync(s, req, parse).response.SyncFailed?
    ensures var ops := Plan(req.changes.value);
      exists k | 0 <= k < |ops| ::
        && Run(s, ops[..k], parse) == Applied(HandleSync(s, req, parse).store)
        && Raises(HandleSync(s, req, parse).store, ops[k])
  {
    var ops := Plan(req.changes.value);
    RunStopsAtFailure(s, ops, parse);
    var k := Run(s, ops, parse).at;
    assert Run(s, ops[..k], parse) == Applied(HandleSync(s, req, parse).store);
  }

  /** A call of the batch that raises on the store the calls before it
      leave fails the sync, and that store is what the sync leaves. */
  lemma RaisingCallFailsSync(s: Store, req: SyncRequest, parse: string -> Timestamp, k: nat)
    requires req.changes.Some?
    requires k < |Plan(req.changes.value)|
    requires Run(s, Plan(req.changes.value)[..k], parse).Applied?
    requires Raises(Run(s, Plan(req.changes.value)[..k], parse).store, Plan(req.changes.value)[k])
    ensures HandleSync(s, req, parse).response == SyncFailed
    ensures HandleSync(s, req, parse).store == Run(s, Plan(req.changes.value)[..k], parse).store
  {
    RaiseStopsRun(s, Plan(req.changes.value), parse, k);
  }

  /** The partial-write case made concrete: a batch that creates a task and
      then updates a missing one fails, yet the created task stays stored. */
  lemma FailedSyncExample(c: TaskCreate, u: TaskUpdate, parse: string -> Timestamp)
    requires u.id != c.id
    ensures var s := Store(map[], map[], map[], 1);
      var req := SyncRequest(None, Some(SyncChanges(Some(ChangeSet(Some([c]), Some([u]), None)), None, None)));
      var r := HandleSync(s, req, parse);
      && r.response == SyncFailed
      && c.id in r.store.tasks
      && r.store.tasks[c.id].fields == NewTask(c, parse)
  {
    var s := Store(map[], map[], map[], 1);
    var ch := SyncChanges(Some(ChangeSet(Some([c]), Some([u]), None)), None, None);
    var ops := Plan(ch);
    assert ops == [CreateTask(c), UpdateTask(u)];
    var s' := ApplyOp(s, CreateTask(c), parse).value;
    RunPairFails(s, CreateTask(c), UpdateTask(u), parse);
    assert HandleSync(s, SyncRequest(None, Some(ch)), parse) == SyncResult(s', SyncFailed);
  }

  /** A sync whose watermark is the moment just before its own writes gets
      back exactly the rows it wrote: new or restamped rows are reported,
      rows it left alone are not. */
  lemma SyncReportsOwnWrites(s: Store, req: SyncRequest, parse: string -> Timestamp)
    requires Valid(s)
    requires Watermark(req.lastPulledAt, parse) == s.clock - 1
    requires HandleSync(s, req, parse).response.Pulled?
    ensures var r := HandleSync(s, req, parse);
      && ChangedSince(r.store.tasks, s.clock - 1) == r.store.tasks.Values - s.tasks.Values
      && ChangedSince(r.store.projects, s.clock - 1) == r.store.projects.Values - s.projects.Values
      && ChangedSince(r.store.taskTypes, s.clock - 1) == r.store.taskTypes.Values - s.taskTypes.Values
  {
    var r := HandleSync(s, req, parse);
    CatchUp(s.tasks, r.store.tasks, s.clock);
    CatchUp(s.projects, r.store.projects, s.clock);
    CatchUp(s.taskTypes, r.store.taskTypes, s.clock);
  }

  /** The table-level fact behind `SyncReportsOwnWrites`. */
  lemma CatchUp<F>(before: Table<F>, after: Table<F>, clock: nat)
    requires TableValid(before, clock) && Evolves(before, after, clock)
    ensures ChangedSince(after, clock - 1) == after.Values - before.Values
  {
    var T := clock - 1;
    forall row | row in after.Values - before.Values ensures row in ChangedSince(after, T) {
      var id :| id in after && after[id] == row;
    }
    forall id | id in before ensures before[id] !in ChangedSince(after, T) {
    }
  }

  /** With no batch and a watermark at or after every stamp, the delta is empty. */
  lemma QuietSync(s: Store, T: string, parse: string -> Timestamp)
    requires Valid(s)
    requires T != "" && s.clock <= parse(T) + 1
    ensures HandleSync(s, SyncRequest(Some(T), None), parse).response
         == Pulled(Changes(Split({}, {}), Split({}, {}), Split({}, {})))
  {
    var W := parse(T);
    QuietPull(s.tasks, s.clock, W);
    QuietPull(s.projects, s.clock, W);
    QuietPull(s.taskTypes, s.clock, W);
  }

  /** A client that never synced (no `lastPulledAt`, or an empty one) gets
      every row of every table, all as created. */
  lemma FirstSync(s: Store, lastPulledAt: Option<string>, parse: string -> Timestamp)
    requires Valid(s) && !Truthy(lastPulledAt)
    ensures var r := HandleSync(s, SyncRequest(lastPulledAt, None), parse).response;
      && r.Pulled?
      && r.changes.tasks == Split(s.tasks.Values, {})
      && r.changes.projects == Split(s.projects.Values, {})
      && r.changes.taskTypes == Split(s.taskTypes.Values, {})
  {
    FullPull(s.tasks, s.clock);
    FullPull(s.projects, s.clock);
    FullPull(s.taskTypes, s.clock);
  }

  /** A client pulling from the epoch gets, after the batch, every row of
      every table as created. */
  lemma PullFromEpoch(s: Store, req: SyncRequest, parse: string -> Timestamp)
    requires Valid(s) && !Truthy(req.lastPulledAt)
    requires HandleSync(s, req, parse).response.Pulled?
    ensures var r := HandleSync(s, req, parse);
      && r.response.changes.tasks == Split(r.store.tasks.Values, {})
      && r.response.changes.projects == Split(r.store.projects.Values, {})
      && r.response.changes.taskTypes == Split(r.store.taskTypes.Values, {})
  {
    var t := HandleSync(s, req, parse).store;
    FullPull(t.tasks, t.clock);
    FullPull(t.projects, t.clock);
    FullPull(t.taskTypes, t.clock);
  }

  /** A project and a task referring to it, created in one batch, both come
      back as created to a client pulling from the epoch. The task is
      written before the project; the store has no foreign keys, so that
      order does not make the create raise here. */
  lemma CreateProjectAndTask(s: Store, p: ProjectCreate, c: TaskCreate, parse: string -> Timestamp)
    requires Valid(s)
    requires p.id !in s.projects && c.id !in s.tasks && c.projectId == Some(p.id)
    ensures var req := SyncRequest(None, Some(SyncChanges(
              Some(ChangeSet(Some([c]), None, None)), Some(ChangeSet(Some([p]), None, None)), None)));
      var r := HandleSync(s, req, parse);
      && r.response.Pulled?
      && c.id in r.store.tasks && p.id in r.store.projects
      && r.store.tasks[c.id] in r.response.changes.tasks.created
      && r.store.projects[p.id] in r.response.changes.projects.created
      && r.store.tasks[c.id].fields.projectId == Some(p.id)
  {
    var ch := SyncChanges(Some(ChangeSet(Some([c]), None, None)), Some(ChangeSet(Some([p]), None, None)), None);
    assert Plan(ch) == [CreateTask(c), CreateProject(p)];
    var s1 := ApplyOp(s, CreateTask(c), parse).value;
    var s2 := ApplyOp(s1, CreateProject(p), parse).value;
    RunPair(s, CreateTask(c), CreateProject(p), parse);
    var req := SyncRequest(None, Some(ch));
    var r := HandleSync(s, req, parse);
    assert r.store == s2;
    assert s2.tasks == s1.tasks && c.id in s1.tasks && s1.tasks[c.id].fields == NewTask(c, parse);
    assert p.id in s2.projects;
    PullFromEpoch(s, req, parse);
  }

  /** A task that existed at the watermark and is patched in this sync comes
      back as updated, not as created, to a client whose watermark is the
      moment before the sync. */
  lemma PatchedTaskIsUpdated(s: Store, u: TaskUpdate, w: string, parse: string -> Timestamp)
    requires Valid(s) && u.id in s.tasks
    requires w != "" && parse(w) == s.clock - 1
    ensures var req := SyncRequest(Some(w), Some(SyncChanges(Some(ChangeSet(None, Some([u]), None)), None, None)));
      var r := HandleSync(s, req, parse);
      && r.response.Pulled?
      && u.id in r.store.tasks
      && r.store.tasks[u.id] in r.response.changes.tasks.updated
      && r.store.tasks[u.id] !in r.response.changes.tasks.created
      && r.store.tasks[u.id].fields == PatchTask(s.tasks[u.id].fields, u, parse)
  {
    var ch := SyncChanges(Some(ChangeSet(None, Some([u]), None)), None, None);
    var ops := Plan(ch);
    assert ops == [UpdateTask(u)];
    var s1 := ApplyOp(s, UpdateTask(u), parse).value;
    RunSingle(s, UpdateTask(u), parse);
    ApplyOpStep(s, UpdateTask(u), parse);
    Classification(s1.tasks, s1.clock, s.clock - 1, u.id);
  }

  /** Syncing the same deletions twice leaves the store one sync left. */
  lemma DeleteSyncIdempotent(s: Store, ids: seq<Id>, parse: string -> Timestamp)
    ensures var req := SyncRequest(None, Some(SyncChanges(Some(ChangeSet(None, None, Some(ids))), None, None)));
      var once := HandleSync(s, req, parse);
      && once.response.Pulled?
      && HandleSync(once.store, req, parse).store == once.store
      && (forall id :: id in once.store.tasks <==> id in s.tasks && id !in ids)
  {
    var ch := SyncChanges(Some(ChangeSet(None, None, Some(ids))), None, None);
    assert Plan(ch) == [DeleteTasks(ids)];
    var s1 := s.(tasks := DeleteMany(s.tasks, ids));
    RunSingle(s, DeleteTasks(ids), parse);
    RunSingle(s1, DeleteTasks(ids), parse);
    DeleteManyIdempotent(s.tasks, ids);
  }

  /** Creating a task whose id is taken fails the sync and changes nothing. */
  lemma DuplicateCreateFails(s: Store, c: TaskCreate, parse: string -> Timestamp)
    requires c.id in s.tasks
    ensures var req := SyncRequest(None, Some(SyncChanges(Some(ChangeSet(Some([c]), None, None)), None, None)));
      var r := HandleSync(s, req, parse);
      && r.response == SyncFailed && r.store == s
  {
    var ch := SyncChanges(Some(ChangeSet(Some([c]), None, None)), None, None);
    assert Plan(ch) == [CreateTask(c)];
    RunSingleFails(s, CreateTask(c), parse);
    assert HandleSync(s, SyncRequest(None, Some(ch)), parse) == SyncResult(s, SyncFailed);
  }

  /** Updating a task that does not exist fails the sync and changes nothing. */
  lemma MissingUpdateFails(s: Store, u: TaskUpdate, parse: string -> Timestamp)
    requires u.id !in s.tasks
    ensures var req := SyncRequest(None, Some(SyncChanges(Some(ChangeSet(None, Some([u]), None)), None, None)));
      var r := HandleSync(s, req, parse);
      && r.response == SyncFailed && r.store == s
  {
    var ch := SyncChanges(Some(ChangeSet(None, Some([u]), None)), None, None);
    assert Plan(ch) == [UpdateTask(u)];
    RunSingleFails(s, UpdateTask(u), parse);
    assert HandleSync(s, SyncRequest(None, Some(ch)), parse) == SyncResult(s, SyncFailed);
  }
}

=== FILE: validation.dfy ===
/** The input rules of the shared zod schemas: which properties are
    required, which may be null, which defaults fill a missing one, and
    which strings must be non-empty or well-formed. A parse either yields
    the normalised value or rejects the input; zod's issue list is not
    modelled. Format checks are parameters: `isUuid`, `isEmail`, `isUrl`. */
module Validation {
  import opened Base
  import opened Store

  /** The string formats zod checks, taken as given predicates. */
  datatype Formats = Formats(isUuid: string -> bool, isEmail: string -> bool, isUrl: string -> bool)

  /** One JSON property: missing, `null`, or a value. */
  datatype Slot<T> = Absent | Null | Given(value: T)

  /** `.optional()`: missing, or a value passing `ok`; `null` is rejected. */
  predicate OptionalOk<T>(s: Slot<T>, ok: T -> bool)
  {
    s.Absent? || (s.Given? && ok(s.value))
  }

  /** `.nullable().optional()`: missing, `null`, or a value passing `ok`. */
  predicate NullableOk<T>(s: Slot<T>, ok: T -> bool)
  {
    !s.Given? || ok(s.value)
  }

  /** The value of a property that passed, or `d` when it was missing. */
  function ValueOr<T>(s: Slot<T>, d: T): T
  {
    if s.Given? then s.value else d
  }

  function AsOption<T>(s: Slot<T>): Option<T>
  {
    if s.Given? then Some(s.value) else None
  }

  predicate NonEmpty(s: string)
  {
    |s| >= 1
  }

  predicate AllUrls(fmt: Formats, urls: seq<string>)
  {
    forall i | 0 <= i < |urls| :: fmt.isUrl(urls[i])
  }

  /** The JSON object handed to a task schema. Properties no task schema
      declares are stripped by zod and so are not represented. */
  datatype RawTask = RawTask(
    title: Slot<string>,
    content: Slot<string>,
    status: Slot<string>,
    section: Slot<string>,
    order: Slot<int>,
    urls: Slot<seq<string>>,
    dueDate: Slot<Timestamp>,
    whenDate: Slot<Timestamp>,
    startedDate: Slot<Timestamp>,
    completedDate: Slot<Timestamp>,
    userId: Slot<string>,
    projectId: Slot<string>,
    typeId: Slot<string>,
    parentId: Slot<string>)

  /** What `createTaskSchema` yields. */
  datatype TaskCreateIn = TaskCreateIn(
    title: string,
    content: Option<string>,
    status: string,
    section: string,
    order: int,
    urls: seq<string>,
    dueDate: Option<Timestamp>,
    whenDate: Option<Timestamp>,
    startedDate: Option<Timestamp>,
    completedDate: Option<Timestamp>,
    userId: string,
    projectId: Option<string>,
    typeId: Option<string>,
    parentId: Option<string>)

  /** The rules a normalised created task satisfies. */
  predicate CreateTaskOk(fmt: Formats, t: TaskCreateIn)
  {
    && NonEmpty(t.title)
    && AllUrls(fmt, t.urls)
    && fmt.isUuid(t.userId)
    && (t.projectId.Some? ==> fmt.isUuid(t.projectId.value))
    && (t.typeId.Some? ==> fmt.isUuid(t.typeId.value))
    && (t.parentId.Some? ==> fmt.isUuid(t.parentId.value))
  }

  /** `createTaskSchema.safeParse`. */
  function ParseCreateTask(fmt: Formats, raw: RawTask): (r: Option<TaskCreateIn>)
    ensures r.Some? <==>
      && raw.title.Given? && NonEmpty(raw.title.value)
      && !raw.content.Null? && !raw.status.Null? && !raw.section.Null? && !raw.order.Null?
      && OptionalOk(raw.urls, us => AllUrls(fmt, us))
      && !raw.dueDate.Null? && !raw.whenDate.Null? && !raw.startedDate.Null? && !raw.completedDate.Null?
      && raw.userId.Given? && fmt.isUuid(raw.userId.value)
      && OptionalOk(raw.projectId, fmt.isUuid)
      && OptionalOk(raw.typeId, fmt.isUuid)
      && OptionalOk(raw.parentId, fmt.isUuid)
    ensures r.Some? ==> CreateTaskOk(fmt, r.value)
    // defaults fill what is missing; what is given is kept
    ensures r.Some? ==> r.value.status == (if raw.status.Given? then raw.status.value else "todo")
    ensures r.Some? ==> r.value.section == (if raw.section.Given? then raw.section.value else "Inbox")
    ensures r.Some? ==> r.value.order == (if raw.order.Given? then raw.order.value else 0)
    ensures r.Some? ==> r.value.urls == (if raw.urls.Given? then raw.urls.value else [])
    ensures r.Some? ==> r.value.title == raw.title.value && r.value.userId == raw.userId.value
    ensures r.Some? ==> r.value.content == AsOption(raw.content) && r.value.dueDate == AsOption(raw.dueDate)
    ensures r.Some? ==> r.value.whenDate == AsOption(raw.whenDate) && r.value.startedDate == AsOption(raw.startedDate)
    ensures r.Some? ==> r.value.completedDate == AsOption(raw.completedDate)
    ensures r.Some? ==> r.value.projectId == AsOption(raw.projectId) && r.value.typeId == AsOption(raw.typeId)
    ensures r.Some? ==> r.value.parentId == AsOption(raw.parentId)
  {
    if && raw.title.Given? && NonEmpty(raw.title.value)
       && !raw.content.Null? && !raw.status.Null? && !raw.section.Null? && !raw.order.Null?
       && OptionalOk(raw.urls, us => AllUrls(fmt, us))
       && !raw.dueDate.Null? && !raw.whenDate.Null? && !raw.startedDate.Null? && !raw.completedDate.Null?
       && raw.userId.Given? && fmt.isUuid(raw.userId.value)
       && OptionalOk(raw.projectId, fmt.isUuid)
       && OptionalOk(raw.typeId, fmt.isUuid)
       && OptionalOk(raw.parentId, fmt.isUuid)
    then
      Some(TaskCreateIn(
        raw.title.value, AsOption(raw.content),
        ValueOr(raw.status, "todo"), ValueOr(raw.section, "Inbox"), ValueOr(raw.order, 0), ValueOr(raw.urls, []),
        AsOption(raw.dueDate), AsOption(raw.whenDate), AsOption(raw.startedDate), AsOption(raw.completedDate),
        raw.userId.value, AsOption(raw.projectId), AsOption(raw.typeId), AsOption(raw.parentId)))
    else None
  }

  /** The input `t` would have come from: every value given, nothing null. */
  function CreateTaskToRaw(t: TaskCreateIn): RawTask
  {
    RawTask(
      Given(t.title), FromOption(t.content), Given(t.status), Given(t.section), Given(t.order), Given(t.urls),
      FromOption(t.dueDate), FromOption(t.whenDate), FromOption(t.startedDate), FromOption(t.completedDate),
      Given(t.userId), FromOption(t.projectId), FromOption(t.typeId), FromOption(t.parentId))
  }

  function FromOption<T>(o: Option<T>): Slot<T>
  {
    if o.Some? then Given(o.value) else Absent
  }

  /** Every task the schema can yield is accepted back unchanged. */
  lemma CreateTaskRoundTrip(fmt: Formats, t: TaskCreateIn)
    requires CreateTaskOk(fmt, t)
    ensures ParseCreateTask(fmt, CreateTaskToRaw(t)) == Some(t)
  {
  }

  /** Normalising an accepted task a second time changes nothing. */
  lemma CreateTaskNormalisationIdempotent(fmt: Formats, raw: RawTask)
    requires ParseCreateTask(fmt, raw).Some?
    ensures ParseCreateTask(fmt, CreateTaskToRaw(ParseCreateTask(fmt, raw).value)) == ParseCreateTask(fmt, raw)
  {
    CreateTaskRoundTrip(fmt, ParseCreateTask(fmt, raw).value);
  }

  /** One URL failing the format check rejects the whole task. */
  lemma OneBadUrlRejects(fmt: Formats, raw: RawTask, i: nat)
    requires raw.urls.Given? && i < |raw.urls.value| && !fmt.isUrl(raw.urls.value[i])
    ensures ParseCreateTask(fmt, raw) == None
  {
  }

  /** What `updateTaskSchema` yields. A nullable property keeps the
      difference between missing (leave as is) and `null` (clear). */
  datatype TaskPatchIn = TaskPatchIn(
    title: Option<string>,
    content: Slot<string>,
    status: Option<string>,
    section: Option<string>,
    order: Option<int>,
    urls: Option<seq<string>>,
    dueDate: Slot<Timestamp>,
    whenDate: Slot<Timestamp>,
    startedDate: Slot<Timestamp>,
    completedDate: Slot<Timestamp>,
    projectId: Slot<string>,
    typeId: Slot<string>,
    parentId: Slot<string>)

  /** `updateTaskSchema.safeParse`. The schema declares no `userId`, so
      one in the input is stripped. */
  function ParseUpdateTask(fmt: Formats, raw: RawTask): (r: Option<TaskPatchIn>)
    ensures r.Some? <==>
      && OptionalOk(raw.title, NonEmpty)
      && !raw.status.Null? && !raw.section.Null? && !raw.order.Null?
      && OptionalOk(raw.urls, us => AllUrls(fmt, us))
      && NullableOk(raw.projectId, fmt.isUuid)
      && NullableOk(raw.typeId, fmt.isUuid)
      && NullableOk(raw.parentId, fmt.isUuid)
    ensures r.Some? ==> r.value.title == AsOption(raw.title) && r.value.order == AsOption(raw.order)
    ensures r.Some? ==> r.value.content == raw.content && r.value.dueDate == raw.dueDate
    ensures r.Some? ==> r.value.status == AsOption(raw.status) && r.value.section == AsOption(raw.section)
    ensures r.Some? ==> r.value.urls == AsOption(raw.urls)
    ensures r.Some? ==> r.value.whenDate == raw.whenDate && r.value.startedDate == raw.startedDate
    ensures r.Some? ==> r.value.completedDate == raw.completedDate
    ensures r.Some? ==> r.value.projectId == raw.projectId && r.value.typeId == raw.typeId
    ensures r.Some? ==> r.value.parentId == raw.parentId
  {
    if && OptionalOk(raw.title, NonEmpty)
       && !raw.status.Null? && !raw.section.Null? && !raw.order.Null?
       && OptionalOk(raw.urls, us => AllUrls(fmt, us))
       && NullableOk(raw.projectId, fmt.isUuid)
       && NullableOk(raw.typeId, fmt.isUuid)
       && NullableOk(raw.parentId, fmt.isUuid)
    then
      Some(TaskPatchIn(
        AsOption(raw.title), raw.content, AsOption(raw.status), AsOption(raw.section), AsOption(raw.order), AsOption(raw.urls),
        raw.dueDate, raw.whenDate, raw.startedDate, raw.completedDate,
        raw.projectId, raw.typeId, raw.parentId))
    else None
  }

  const NoTaskFields: RawTask :=
    RawTask(Absent, Absent, Absent, Absent, Absent, Absent, Absent, Absent, Absent, Absent, Absent, Absent, Absent, Absent)

  /** The empty patch is accepted and changes nothing. */
  lemma EmptyTaskUpdateAccepted(fmt: Formats, f: TaskFields)
    ensures ParseUpdateTask(fmt, NoTaskFields).Some?
    ensures ApplyTaskUpdate(f, ParseUpdateTask(fmt, NoTaskFields).value) == f
  {
  }

  /** A `userId` in an update is ignored: a patch cannot move a task to another user. */
  lemma UpdateIgnoresUserId(fmt: Formats, raw: RawTask, userId: Slot<string>)
    ensures ParseUpdateTask(fmt, raw.(userId := userId)) == ParseUpdateTask(fmt, raw)
  {
  }

  /** Writing a missing / null / given property over a nullable column. */
  function ApplyNullable<T>(stored: Option<T>, s: Slot<T>): (r: Option<T>)
    ensures s.Absent? ==> r == stored
    ensures s.Null? ==> r.None?
    ensures s.Given? ==> r == Some(s.value)
  {
    match s
    case Absent => stored
    case Null => None
    case Given(v) => Some(v)
  }

  /** A parsed update written to a task record: missing properties keep
      the stored value, `null` clears a nullable column. */
  function ApplyTaskUpdate(f: TaskFields, u: TaskPatchIn): (r: TaskFields)
    ensures r.userId == f.userId
    ensures r.title == (if u.title.Some? then u.title.value else f.title)
    ensures r.status == (if u.status.Some? then u.status.value else f.status)
    ensures r.section == (if u.section.Some? then u.section.value else f.section)
    ensures r.order == (if u.order.Some? then u.order.value else f.order)
    ensures r.urls == (if u.urls.Some? then u.urls.value else f.urls)
    // a nullable column: missing keeps it, null clears it, a value replaces it
    ensures r.content == (if u.content.Absent? then f.content else AsOption(u.content))
    ensures r.dueDate == (if u.dueDate.Absent? then f.dueDate else AsOption(u.dueDate))
    ensures r.whenDate == (if u.whenDate.Absent? then f.whenDate else AsOption(u.whenDate))
    ensures r.startedDate == (if u.startedDate.Absent? then f.startedDate else AsOption(u.startedDate))
    ensures r.completedDate == (if u.completedDate.Absent? then f.completedDate else AsOption(u.completedDate))
    ensures r.projectId == (if u.projectId.Absent? then f.projectId else AsOption(u.projectId))
    ensures r.typeId == (if u.typeId.Absent? then f.typeId else AsOption(u.typeId))
    ensures r.parentId == (if u.parentId.Absent? then f.parentId else AsOption(u.parentId))
  {
    TaskFields(
      Patch(f.title, u.title), ApplyNullable(f.content, u.content),
      Patch(f.status, u.status), Patch(f.section, u.section), Patch(f.order, u.order), Patch(f.urls, u.urls),
      ApplyNullable(f.dueDate, u.dueDate), ApplyNullable(f.whenDate, u.whenDate),
      ApplyNullable(f.startedDate, u.startedDate), ApplyNullable(f.completedDate, u.completedDate),
      f.userId,
      ApplyNullable(f.projectId, u.projectId), ApplyNullable(f.typeId, u.typeId), ApplyNullable(f.parentId, u.parentId))
  }

  /** Writing the same parsed update twice is writing it once. */
  lemma ApplyTaskUpdateIdempotent(f: TaskFields, u: TaskPatchIn)
    ensures ApplyTaskUpdate(ApplyTaskUpdate(f, u), u) == ApplyTaskUpdate(f, u)
  {
  }

  /** `taskSchema`: the rules every stored task record satisfies. */
  predicate TaskRecordOk(fmt: Formats, row: Row<TaskFields>)
  {
    && fmt.isUuid(row.id)
    && NonEmpty(row.fields.title)
    && AllUrls(fmt, row.fields.urls)
    && fmt.isUuid(row.fields.userId)
    && (row.fields.projectId.Some? ==> fmt.isUuid(row.fields.projectId.value))
    && (row.fields.typeId.Some? ==> fmt.isUuid(row.fields.typeId.value))
    && (row.fields.parentId.Some? ==> fmt.isUuid(row.fields.parentId.value))
  }

  /** The record a created task becomes. */
  function TaskFieldsOf(t: TaskCreateIn): (f: TaskFields)
    ensures f.title == t.title && f.urls == t.urls && f.userId == t.userId
    ensures f.projectId == t.projectId && f.typeId == t.typeId && f.parentId == t.parentId
  {
    TaskFields(t.title, t.content, t.status, t.section, t.order, t.urls,
      t.dueDate, t.whenDate, t.startedDate, t.completedDate, t.userId, t.projectId, t.typeId, t.parentId)
  }

  /** A task accepted by `createTaskSchema` and stored under a UUID id is
      a valid `taskSchema` record. */
  lemma CreatedTaskIsRecord(fmt: Formats, raw: RawTask, id: Id, now: nat)
    requires ParseCreateTask(fmt, raw).Some? && fmt.isUuid(id)
    ensures TaskRecordOk(fmt, Row(id, TaskFieldsOf(ParseCreateTask(fmt, raw).value), now, now))
  {
  }

  /** A patch accepted by `updateTaskSchema` keeps a valid task record valid. */
  lemma UpdateKeepsTaskRecord(fmt: Formats, row: Row<TaskFields>, raw: RawTask, now: nat)
    requires TaskRecordOk(fmt, row) && ParseUpdateTask(fmt, raw).Some?
    ensures TaskRecordOk(fmt, row.(fields := ApplyTaskUpdate(row.fields, ParseUpdateTask(fmt, raw).value), updatedAt := now))
  {
  }

  // ---- projects and task types ----

  datatype RawProject = RawProject(name: Slot<string>, userId: Slot<string>)
  datatype ProjectCreateIn = ProjectCreateIn(name: string, userId: string)
  datatype ProjectPatchIn = ProjectPatchIn(name: Option<string>)

  /** `createProjectSchema.safeParse`. */
  function ParseCreateProject(fmt: Formats, raw: RawProject): (r: Option<ProjectCreateIn>)
    ensures r.Some? <==> raw.name.Given? && NonEmpty(raw.name.value) && raw.userId.Given? && fmt.isUuid(raw.userId.value)
    ensures r.Some? ==> r.value == ProjectCreateIn(raw.name.value, raw.userId.value)
  {
    if raw.name.Given? && NonEmpty(raw.name.value) && raw.userId.Given? && fmt.isUuid(raw.userId.value)
    then Some(ProjectCreateIn(raw.name.value, raw.userId.value))
    else None
  }

  /** `updateProjectSchema.safeParse`; a `userId` is stripped. */
  function ParseUpdateProject(raw: RawProject): (r: Option<ProjectPatchIn>)
    ensures r.Some? <==> OptionalOk(raw.name, NonEmpty)
    ensures r.Some? ==> r.value.name == AsOption(raw.name)
  {
    if OptionalOk(raw.name, NonEmpty) then Some(ProjectPatchIn(AsOption(raw.name))) else None
  }

  /** `projectSchema`. */
  predicate ProjectRecordOk(fmt: Formats, row: Row<ProjectFields>)
  {
    fmt.isUuid(row.id) && NonEmpty(row.fields.name) && fmt.isUuid(row.fields.userId)
  }

  /** Created and then updated through the schemas, a project stays a valid `projectSchema` record. */
  lemma ProjectSchemasKeepRecord(fmt: Formats, create: RawProject, update: RawProject, id: Id, t0: nat, t1: nat)
    requires ParseCreateProject(fmt, create).Some? && ParseUpdateProject(update).Some? && fmt.isUuid(id)
    ensures var c := ParseCreateProject(fmt, create).value;
            var row := Row(id, ProjectFields(c.name, c.userId), t0, t0);
            && ProjectRecordOk(fmt, row)
            && ProjectRecordOk(fmt, row.(fields := row.fields.(name := Patch(row.fields.name, ParseUpdateProject(update).value.name)), updatedAt := t1))
  {
  }

  datatype RawTaskType = RawTaskType(name: Slot<string>, icon: Slot<string>, userId: Slot<string>)
  datatype TaskTypeCreateIn = TaskTypeCreateIn(name: string, icon: string, userId: string)
  datatype TaskTypePatchIn = TaskTypePatchIn(name: Option<string>, icon: Option<string>)

  /** `createTaskTypeSchema.safeParse`: the icon is required but may be empty. */
  function ParseCreateTaskType(fmt: Formats, raw: RawTaskType): (r: Option<TaskTypeCreateIn>)
    ensures r.Some? <==>
      raw.name.Given? && NonEmpty(raw.name.value) && raw.icon.Given? && raw.userId.Given? && fmt.isUuid(raw.userId.value)
    ensures r.Some? ==> r.value == TaskTypeCreateIn(raw.name.value, raw.icon.value, raw.userId.value)
  {
    if raw.name.Given? && NonEmpty(raw.name.value) && raw.icon.Given? && raw.userId.Given? && fmt.isUuid(raw.userId.value)
    then Some(TaskTypeCreateIn(raw.name.value, raw.icon.value, raw.userId.value))
    else None
  }

  /** `updateTaskTypeSchema.safeParse`; a `userId` is stripped. */
  function ParseUpdateTaskType(raw: RawTaskType): (r: Option<TaskTypePatchIn>)
    ensures r.Some? <==> OptionalOk(raw.name, NonEmpty) && !raw.icon.Null?
    ensures r.Some? ==> r.value.name == AsOption(raw.name) && r.value.icon == AsOption(raw.icon)
  {
    if OptionalOk(raw.name, NonEmpty) && !raw.icon.Null?
    then Some(TaskTypePatchIn(AsOption(raw.name), AsOption(raw.icon)))
    else None
  }

  /** `taskTypeSchema`. */
  predicate TaskTypeRecordOk(fmt: Formats, row: Row<TaskTypeFields>)
  {
    fmt.isUuid(row.id) && NonEmpty(row.fields.name) && fmt.isUuid(row.fields.userId)
  }

  /** Created and then updated through the schemas, a task type stays a valid `taskTypeSchema` record. */
  lemma TaskTypeSchemasKeepRecord(fmt: Formats, create: RawTaskType, update: RawTaskType, id: Id, t0: nat, t1: nat)
    requires ParseCreateTaskType(fmt, create).Some? && ParseUpdateTaskType(update).Some? && fmt.isUuid(id)
    ensures var c := ParseCreateTaskType(fmt, create).value;
            var u := ParseUpdateTaskType(update).value;
            var row := Row(id, TaskTypeFields(c.name, c.icon, c.userId), t0, t0);
            && TaskTypeRecordOk(fmt, row)
            && TaskTypeRecordOk(fmt, row.(fields := row.fields.(name := Patch(row.fields.name, u.name), icon := Patch(row.fields.icon, u.icon)), updatedAt := t1))
  {
  }

  // ---- syncChangesSchema ----

  /** An `updated` entry: `{ id, changes }`. */
  datatype RawEntry<R> = RawEntry(id: Slot<string>, changes: Slot<R>)
  datatype RawGroup<R> = RawGroup(created: Slot<seq<R>>, updated: Slot<seq<RawEntry<R>>>, deleted: Slot<seq<string>>)
  datatype RawSyncChanges = RawSyncChanges(
    tasks: Slot<RawGroup<RawTask>>,
    projects: Slot<RawGroup<RawProject>>,
    taskTypes: Slot<RawGroup<RawTaskType>>)

  datatype Entry<U> = Entry(id: string, changes: U)
  datatype Group<C, U> = Group(created: seq<C>, updated: seq<Entry<U>>, deleted: seq<string>)
  datatype SyncChangesIn = SyncChangesIn(
    tasks: Option<Group<TaskCreateIn, TaskPatchIn>>,
    projects: Option<Group<ProjectCreateIn, ProjectPatchIn>>,
    taskTypes: Option<Group<TaskTypeCreateIn, TaskTypePatchIn>>)

  /** `z.array(item)`: every element must parse; the result keeps the order. */
  function ParseAll<A, B>(xs: seq<A>, item: A -> Option<B>): (r: Option<seq<B>>)
    ensures r.Some? <==> forall i | 0 <= i < |xs| :: item(xs[i]).Some?
    ensures r.Some? ==> |r.value| == |xs| && forall i | 0 <= i < |xs| :: item(xs[i]) == Some(r.value[i])
  {
    if xs == [] then Some([])
    else
      match item(xs[0])
      case None => None
      case Some(b) =>
        match ParseAll(xs[1..], item)
        case None => None
        case Some(bs) => Some([b] + bs)
  }

  /** `z.array(item).default([])`. */
  function ParseList<A, B>(s: Slot<seq<A>>, item: A -> Option<B>): (r: Option<seq<B>>)
    ensures s.Absent? ==> r == Some([])
    ensures s.Null? ==> r.None?
    ensures s.Given? ==> r == ParseAll(s.value, item)
  {
    match s
    case Absent => Some([])
    case Null => None
    case Given(xs) => ParseAll(xs, item)
  }

  function ParseId(fmt: Formats, id: string): (r: Option<string>)
  {
    if fmt.isUuid(id) then Some(id) else None
  }

  function ParseEntry<R, U>(fmt: Formats, e: RawEntry<R>, changes: R -> Option<U>): (r: Option<Entry<U>>)
    ensures r.Some? <==> e.id.Given? && fmt.isUuid(e.id.value) && e.changes.Given? && changes(e.changes.value).Some?
    ensures r.Some? ==> r.value.id == e.id.value && changes(e.changes.value) == Some(r.value.changes)
  {
    if e.id.Given? && fmt.isUuid(e.id.value) && e.changes.Given? && changes(e.changes.value).Some?
    then Some(Entry(e.id.value, changes(e.changes.value).value))
    else None
  }

  /** One entity kind's group: `created`, `updated` and `deleted`, each defaulting to `[]`. */
  function ParseGroup<R, C, U>(fmt: Formats, g: RawGroup<R>, create: R -> Option<C>, update: R -> Option<U>): (r: Option<Group<C, U>>)
    ensures r.Some? <==>
      && ParseList(g.created, create).Some?
      && ParseList(g.updated, e => ParseEntry(fmt, e, update)).Some?
      && ParseList(g.deleted, id => ParseId(fmt, id)).Some?
    ensures r.Some? ==> ParseList(g.created, create) == Some(r.value.created)
    ensures r.Some? ==> ParseList(g.updated, e => ParseEntry(fmt, e, update)) == Some(r.value.updated)
    ensures r.Some? && g.created.Absent? ==> r.value.created == []
    ensures r.Some? && g.updated.Absent? ==> r.value.updated == []
    ensures r.Some? ==> r.value.deleted == ValueOr(g.deleted, [])
    ensures r.Some? ==> forall i | 0 <= i < |r.value.deleted| :: fmt.isUuid(r.value.deleted[i])
    ensures r.Some? ==> forall i | 0 <= i < |r.value.updated| :: fmt.isUuid(r.value.updated[i].id)
  {
    var created := ParseList(g.created, create);
    var updated := ParseList(g.updated, e => ParseEntry(fmt, e, update));
    var deleted := ParseList(g.deleted, id => ParseId(fmt, id));
    if created.Some? && updated.Some? && deleted.Some? then
      Some(Group(created.value, updated.value, deleted.value))
    else None
  }

  /** `group.optional()`. */
  function ParseOptionalGroup<R, C, U>(fmt: Formats, g: Slot<RawGroup<R>>, create: R -> Option<C>, update: R -> Option<U>)
    : (r: Option<Option<Group<C, U>>>)
    ensures g.Absent? ==> r == Some(None)
    ensures g.Null? ==> r.None?
    ensures g.Given? ==> r.Some? == ParseGroup(fmt, g.value, create, update).Some?
    ensures g.Given? && r.Some? ==> r.value == ParseGroup(fmt, g.value, create, update)
  {
    match g
    case Absent => Some(None)
    case Null => None
    case Given(v) =>
      var p := ParseGroup(fmt, v, create, update);
      if p.Some? then Some(p) else None
  }

  /** `syncChangesSchema.safeParse`. */
  function ParseSyncChanges(fmt: Formats, raw: RawSyncChanges): (r: Option<SyncChangesIn>)
    ensures r.Some? <==>
      && ParseOptionalGroup(fmt, raw.tasks, t => ParseCreateTask(fmt, t), t => ParseUpdateTask(fmt, t)).Some?
      && ParseOptionalGroup(fmt, raw.projects, p => ParseCreateProject(fmt, p), ParseUpdateProject).Some?
      && ParseOptionalGroup(fmt, raw.taskTypes, k => ParseCreateTaskType(fmt, k), ParseUpdateTaskType).Some?
    ensures r.Some? ==> (r.value.tasks.None? <==> raw.tasks.Absent?)
    ensures r.Some? ==> (r.value.projects.None? <==> raw.projects.Absent?)
    ensures r.Some? ==> (r.value.taskTypes.None? <==> raw.taskTypes.Absent?)
    ensures r.Some? ==> ParseOptionalGroup(fmt, raw.tasks, t => ParseCreateTask(fmt, t), t => ParseUpdateTask(fmt, t)) == Some(r.value.tasks)
    ensures r.Some? ==> ParseOptionalGroup(fmt, raw.projects, p => ParseCreateProject(fmt, p), ParseUpdateProject) == Some(r.value.projects)
    ensures r.Some? ==> ParseOptionalGroup(fmt, raw.taskTypes, k => ParseCreateTaskType(fmt, k), ParseUpdateTaskType) == Some(r.value.taskTypes)
  {
    var tasks := ParseOptionalGroup(fmt, raw.tasks, t => ParseCreateTask(fmt, t), t => ParseUpdateTask(fmt, t));
    var projects := ParseOptionalGroup(fmt, raw.projects, p => ParseCreateProject(fmt, p), ParseUpdateProject);
    var taskTypes := ParseOptionalGroup(fmt, raw.taskTypes, k => ParseCreateTaskType(fmt, k), ParseUpdateTaskType);
    if tasks.Some? && projects.Some? && taskTypes.Some? then
      Some(SyncChangesIn(tasks.value, projects.value, taskTypes.value))
    else None
  }

  /** Parsing a concatenation is parsing its parts. */
  lemma {:induction false} ParseAllAppend<A, B>(xs: seq<A>, ys: seq<A>, item: A -> Option<B>)
    ensures ParseAll(xs + ys, item) ==
      if ParseAll(xs, item).Some? && ParseAll(ys, item).Some? then Some(ParseAll(xs, item).value + ParseAll(ys, item).value)
      else None
    decreases |xs|
  {
    if xs == [] {
      assert xs + ys == ys;
      if ParseAll(ys, item).Some? {
        assert [] + ParseAll(ys, item).value == ParseAll(ys, item).value;
      }
    } else {
      TailOfConcat(xs, ys);
      ParseAllAppend(xs[1..], ys, item);
      match item(xs[0])
      case None =>
      case Some(b) =>
        if ParseAll(xs[1..], item).Some? && ParseAll(ys, item).Some? {
          ConsAssoc(b, ParseAll(xs[1..], item).value, ParseAll(ys, item).value);
        }
    }
  }

  lemma ConsAssoc<B>(b: B, xs: seq<B>, ys: seq<B>)
    ensures [b] + (xs + ys) == ([b] + xs) + ys
  {
  }

  const NoGroups: RawSyncChanges := RawSyncChanges(Absent, Absent, Absent)

  /** With every group missing the input is accepted and carries no changes. */
  lemma NoGroupsAccepted(fmt: Formats)
    ensures ParseSyncChanges(fmt, NoGroups) == Some(SyncChangesIn(None, None, None))
  {
  }

  /** A group with every list missing is three empty lists. */
  lemma EmptyGroupDefaults<R, C, U>(fmt: Formats, create: R -> Option<C>, update: R -> Option<U>)
    ensures ParseGroup(fmt, RawGroup(Absent, Absent, Absent), create, update) == Some(Group([], [], []))
  {
  }

  /** One invalid created task rejects the whole set of changes. */
  lemma OneBadTaskRejectsSync(fmt: Formats, raw: RawSyncChanges, i: nat)
    requires raw.tasks.Given? && raw.tasks.value.created.Given?
    requires i < |raw.tasks.value.created.value| && ParseCreateTask(fmt, raw.tasks.value.created.value[i]).None?
    ensures ParseSyncChanges(fmt, raw) == None
  {
    var create := (t: RawTask) => ParseCreateTask(fmt, t);
    assert create(raw.tasks.value.created.value[i]).None?;
  }

  /** Every task created in accepted changes obeys the create rules. */
  lemma AcceptedTasksAreOk(fmt: Formats, raw: RawSyncChanges)
    requires ParseSyncChanges(fmt, raw).Some? && ParseSyncChanges(fmt, raw).value.tasks.Some?
    ensures var created := ParseSyncChanges(fmt, raw).value.tasks.value.created;
            forall i | 0 <= i < |created| :: CreateTaskOk(fmt, created[i])
  {
    var create := (t: RawTask) => ParseCreateTask(fmt, t);
    var g := ParseGroup(fmt, raw.tasks.value, create, t => ParseUpdateTask(fmt, t)).value;
    var xs := ValueOr(raw.tasks.value.created, []);
    assert ParseList(raw.tasks.value.created, create) == Some(g.created);
    forall i | 0 <= i < |g.created|
      ensures CreateTaskOk(fmt, g.created[i])
    {
      assert create(xs[i]) == Some(g.created[i]);
    }
  }
}

=== FILE: writephase.dfy ===
/** The write phase of `/sync`: the batch is flattened into store operations
    in a fixed order and applied one after another. There is no transaction:
    the first operation that raises stops the sequence, and what was written
    before it stays written. */
module WritePhase {
  import opened Base
  import opened Store
  import opened Batch

  /** One store call the handler makes. A `deleted` list is one `deleteMany`. */
  datatype Op =
    | CreateTask(task: TaskCreate)
    | UpdateTask(taskPatch: TaskUpdate)
    | DeleteTasks(taskIds: seq<Id>)
    | CreateProject(project: ProjectCreate)
    | UpdateProject(projectPatch: ProjectUpdate)
    | DeleteProjects(projectIds: seq<Id>)
    | CreateTaskType(taskType: TaskTypeCreate)
    | UpdateTaskType(taskTypePatch: TaskTypeUpdate)
    | DeleteTaskTypes(taskTypeIds: seq<Id>)

  /** The position of an operation's kind in the handler's fixed order:
      tasks, then projects, then task types; within each, created, updated,
      deleted. */
  function Rank(op: Op): nat
  {
    match op
    case CreateTask(_) => 0
    case UpdateTask(_) => 1
    case DeleteTasks(_) => 2
    case CreateProject(_) => 3
    case UpdateProject(_) => 4
    case DeleteProjects(_) => 5
    case CreateTaskType(_) => 6
    case UpdateTaskType(_) => 7
    case DeleteTaskTypes(_) => 8
  }

  predicate InOrder(ops: seq<Op>)
  {
    forall i, j | 0 <= i < j < |ops| :: Rank(ops[i]) <= Rank(ops[j])
  }

  /** Every rank in `ops` lies between `lo` and `hi`. */
  predicate Within(ops: seq<Op>, lo: nat, hi: nat)
  {
    forall i | 0 <= i < |ops| :: lo <= Rank(ops[i]) <= hi
  }

  /** Two ordered runs joined, the first ending no later than the second starts. */
  lemma InOrderAppend(a: seq<Op>, b: seq<Op>, lo: nat, mid: nat, hi: nat)
    requires InOrder(a) && InOrder(b)
    requires lo <= mid <= hi
    requires Within(a, lo, mid) && Within(b, mid, hi)
    ensures InOrder(a + b) && Within(a + b, lo, hi)
  {
    forall i, j | 0 <= i < j < |a + b| ensures Rank((a + b)[i]) <= Rank((a + b)[j]) {
      if j < |a| {
        assert (a + b)[i] == a[i] && (a + b)[j] == a[j];
      } else if i >= |a| {
        assert (a + b)[i] == b[i - |a|] && (a + b)[j] == b[j - |a|];
      } else {
        assert (a + b)[i] == a[i] && (a + b)[j] == b[j - |a|];
      }
    }
    forall i | 0 <= i < |a + b| ensures lo <= Rank((a + b)[i]) <= hi {
      if i < |a| {
        assert (a + b)[i] == a[i];
      } else {
        assert (a + b)[i] == b[i - |a|];
      }
    }
  }

  /** The calls a list becomes, one per element, in list order. */
  function Block<T>(xs: seq<T>, mk: T -> Op): (r: seq<Op>)
    ensures |r| == |xs|
    ensures forall i | 0 <= i < |xs| :: r[i] == mk(xs[i])
  {
    seq(|xs|, i requires 0 <= i < |xs| => mk(xs[i]))
  }

  /** The optional `deleteMany` of a kind. */
  function DeleteOp(ids: Option<seq<Id>>, mk: seq<Id> -> Op): (r: seq<Op>)
    ensures |r| == if ids.Some? then 1 else 0
    ensures ids.Some? ==> r[0] == mk(ids.value)
  {
    if ids.Some? then [mk(ids.value)] else []
  }

  /** One kind's calls: its creates, then its updates, then its delete. The
      three constructors fix the kind's ranks `base`, `base + 1`, `base + 2`. */
  function KindOps<C(!new), U(!new)>(g: Option<ChangeSet<C, U>>, base: nat,
                                       mkC: C -> Op, mkU: U -> Op, mkD: seq<Id> -> Op): (r: seq<Op>)
    requires forall c :: Rank(mkC(c)) == base
    requires forall u :: Rank(mkU(u)) == base + 1
    requires forall ids :: Rank(mkD(ids)) == base + 2
    ensures InOrder(r) && Within(r, base, base + 2)
    ensures g.None? ==> r == []
    ensures g.Some? ==>
      KindContent(r, OrEmpty(g.value.created), OrEmpty(g.value.updated), g.value.deleted, mkC, mkU, mkD)
  {
    if g.None? then []
    else
      var cs, us := OrEmpty(g.value.created), OrEmpty(g.value.updated);
      KindLaidOut(cs, us, g.value.deleted, base, mkC, mkU, mkD);
      Block(cs, mkC) + Block(us, mkU) + DeleteOp(g.value.deleted, mkD)
  }

  /** `r` holds one create per element of `cs`, then one update per element
      of `us`, then the delete if there is one. */
  predicate KindContent<C, U>(r: seq<Op>, cs: seq<C>, us: seq<U>, deleted: Option<seq<Id>>,
                              mkC: C -> Op, mkU: U -> Op, mkD: seq<Id> -> Op)
  {
    && |r| == |cs| + |us| + (if deleted.Some? then 1 else 0)
    && (forall i | 0 <= i < |cs| :: r[i] == mkC(cs[i]))
    && (forall i | 0 <= i < |us| :: r[|cs| + i] == mkU(us[i]))
    && (deleted.Some? ==> r[|r| - 1] == mkD(deleted.value))
  }

  lemma KindLaidOut<C, U>(cs: seq<C>, us: seq<U>, deleted: Option<seq<Id>>, base: nat,
                          mkC: C -> Op, mkU: U -> Op, mkD: seq<Id> -> Op)
    requires forall c :: Rank(mkC(c)) == base
    requires forall u :: Rank(mkU(u)) == base + 1
    requires forall ids :: Rank(mkD(ids)) == base + 2
    ensures var r := Block(cs, mkC) + Block(us, mkU) + DeleteOp(deleted, mkD);
            InOrder(r) && Within(r, base, base + 2) && KindContent(r, cs, us, deleted, mkC, mkU, mkD)
  {
    var c, u, d := Block(cs, mkC), Block(us, mkU), DeleteOp(deleted, mkD);
    BlockRanked(cs, mkC, base);
    BlockRanked(us, mkU, base + 1);
    DeleteRanked(deleted, mkD, base + 2);
    KindOrder(c, u, d, base);
    KindIndexed(cs, us, deleted, mkC, mkU, mkD);
  }

  lemma KindIndexed<C, U>(cs: seq<C>, us: seq<U>, deleted: Option<seq<Id>>,
                          mkC: C -> Op, mkU: U -> Op, mkD: seq<Id> -> Op)
    ensures KindContent(Block(cs, mkC) + Block(us, mkU) + DeleteOp(deleted, mkD), cs, us, deleted, mkC, mkU, mkD)
  {
    var c, u, d := Block(cs, mkC), Block(us, mkU), DeleteOp(deleted, mkD);
    var r := c + u + d;
    forall i | 0 <= i < |cs| ensures r[i] == mkC(cs[i]) {
      assert r[i] == c[i];
    }
    forall i | 0 <= i < |us| ensures r[|cs| + i] == mkU(us[i]) {
      assert r[|cs| + i] == u[i];
    }
    if deleted.Some? {
      assert r[|r| - 1] == d[0];
    }
  }

  lemma BlockRanked<T>(xs: seq<T>, mk: T -> Op, k: nat)
    requires forall x :: Rank(mk(x)) == k
    ensures InOrder(Block(xs, mk)) && Within(Block(xs, mk), k, k)
  {
  }

  lemma DeleteRanked(ids: Option<seq<Id>>, mk: seq<Id> -> Op, k: nat)
    requires forall x :: Rank(mk(x)) == k
    ensures InOrder(DeleteOp(ids, mk)) && Within(DeleteOp(ids, mk), k, k)
  {
  }

  lemma KindOrder(c: seq<Op>, u: seq<Op>, d: seq<Op>, base: nat)
    requires InOrder(c) && Within(c, base, base)
    requires InOrder(u) && Within(u, base + 1, base + 1)
    requires InOrder(d) && Within(d, base + 2, base + 2)
    ensures InOrder(c + u + d) && Within(c + u + d, base, base + 2)
  {
    InOrderAppend(c, u, base, base, base + 1);
    InOrderAppend(c + u, d, base, base + 1, base + 2);
  }

  function TaskOps(g: Option<ChangeSet<TaskCreate, TaskUpdate>>): seq<Op>
  {
    KindOps(g, 0, c => CreateTask(c), u => UpdateTask(u), ids => DeleteTasks(ids))
  }

  function ProjectOps(g: Option<ChangeSet<ProjectCreate, ProjectUpdate>>): seq<Op>
  {
    KindOps(g, 3, c => CreateProject(c), u => UpdateProject(u), ids => DeleteProjects(ids))
  }

  function TaskTypeOps(g: Option<ChangeSet<TaskTypeCreate, TaskTypeUpdate>>): seq<Op>
  {
    KindOps(g, 6, c => CreateTaskType(c), u => UpdateTaskType(u), ids => DeleteTaskTypes(ids))
  }

  /** The whole batch as the handler issues it: every task operation before
      every project operation before every task-type operation. */
  function Plan(c: SyncChanges): (r: seq<Op>)
    ensures InOrder(r)
  {
    var t, p, k := TaskOps(c.tasks), ProjectOps(c.projects), TaskTypeOps(c.taskTypes);
    PlanOrdered(t, p, k);
    t + p + k
  }

  /** The batch is the task calls, then the project calls, then the
      task-type calls, each kind's calls kept whole. */
  lemma PlanParts(c: SyncChanges)
    ensures var r, t, p := Plan(c), TaskOps(c.tasks), ProjectOps(c.projects);
      && |r| == |t| + |p| + |TaskTypeOps(c.taskTypes)|
      && r[..|t|] == t
      && r[|t|..|t| + |p|] == p
      && r[|t| + |p|..] == TaskTypeOps(c.taskTypes)
  {
    var t, p, k := TaskOps(c.tasks), ProjectOps(c.projects), TaskTypeOps(c.taskTypes);
    assert Plan(c) == t + p + k;
    assert (t + p + k)[..|t|] == t;
    assert (t + p + k)[|t|..|t| + |p|] == p;
    assert (t + p + k)[|t| + |p|..] == k;
  }

  lemma PlanOrdered(t: seq<Op>, p: seq<Op>, k: seq<Op>)
    requires InOrder(t) && Within(t, 0, 2)
    requires InOrder(p) && Within(p, 3, 5)
    requires InOrder(k) && Within(k, 6, 8)
    ensures InOrder(t + p + k)
  {
    InOrderAppend(t, p, 0, 3, 5);
    InOrderAppend(t + p, k, 0, 6, 8);
  }

  /** When an operation raises: a create whose id is taken, an update whose
      id is missing. A `deleteMany` never raises. */
  predicate Raises(s: Store, op: Op)
  {
    match op
    case CreateTask(c) => c.id in s.tasks
    case UpdateTask(u) => u.id !in s.tasks
    case CreateProject(c) => c.id in s.projects
    case UpdateProject(u) => u.id !in s.projects
    case CreateTaskType(c) => c.id in s.taskTypes
    case UpdateTaskType(u) => u.id !in s.taskTypes
    case _ => false
  }

  predicate StoreEvolves(before: Store, after: Store)
  {
    && before.clock <= after.clock
    && Evolves(before.tasks, after.tasks, before.clock)
    && Evolves(before.projects, after.projects, before.clock)
    && Evolves(before.taskTypes, after.taskTypes, before.clock)
  }

  lemma StoreEvolvesTrans(a: Store, b: Store, c: Store)
    requires StoreEvolves(a, b) && StoreEvolves(b, c)
    ensures StoreEvolves(a, c)
  {
    EvolvesTrans(a.tasks, b.tasks, c.tasks, a.clock, b.clock);
    EvolvesTrans(a.projects, b.projects, c.projects, a.clock, b.clock);
    EvolvesTrans(a.taskTypes, b.taskTypes, c.taskTypes, a.clock, b.clock);
  }

  /** One store call. A create or update stamps the current clock and
      advances it; a delete leaves the clock. */
  function ApplyOp(s: Store, op: Op, parse: string -> Timestamp): (r: Result<Store, DbError>)
    ensures r.Err? <==> Raises(s, op)
    ensures r.Ok? ==> r.value.clock == if Rank(op) % 3 == 2 then s.clock else s.clock + 1
    ensures r.Ok? && Rank(op) > 2 ==> r.value.tasks == s.tasks
    ensures r.Ok? && (Rank(op) < 3 || Rank(op) > 5) ==> r.value.projects == s.projects
    ensures r.Ok? && Rank(op) < 6 ==> r.value.taskTypes == s.taskTypes
    // what the call writes to its own table, stamped with the clock before the call
    ensures r.Ok? && op.CreateTask? ==> Insert(s.tasks, op.task.id, NewTask(op.task, parse), s.clock) == Ok(r.value.tasks)
    ensures r.Ok? && op.UpdateTask? ==> Update(s.tasks, op.taskPatch.id, f => PatchTask(f, op.taskPatch, parse), s.clock) == Ok(r.value.tasks)
    ensures r.Ok? && op.DeleteTasks? ==> r.value.tasks == DeleteMany(s.tasks, op.taskIds)
    ensures r.Ok? && op.CreateProject? ==> Insert(s.projects, op.project.id, NewProject(op.project), s.clock) == Ok(r.value.projects)
    ensures r.Ok? && op.UpdateProject? ==> Update(s.projects, op.projectPatch.id, f => PatchProject(f, op.projectPatch), s.clock) == Ok(r.value.projects)
    ensures r.Ok? && op.DeleteProjects? ==> r.value.projects == DeleteMany(s.projects, op.projectIds)
    ensures r.Ok? && op.CreateTaskType? ==> Insert(s.taskTypes, op.taskType.id, NewTaskType(op.taskType), s.clock) == Ok(r.value.taskTypes)
    ensures r.Ok? && op.UpdateTaskType? ==> Update(s.taskTypes, op.taskTypePatch.id, f => PatchTaskType(f, op.taskTypePatch), s.clock) == Ok(r.value.taskTypes)
    ensures r.Ok? && op.DeleteTaskTypes? ==> r.value.taskTypes == DeleteMany(s.taskTypes, op.taskTypeIds)
  {
    if Rank(op) < 3 then TaskCall(s, op, parse)
    else if Rank(op) < 6 then ProjectCall(s, op)
    else TaskTypeCall(s, op)
  }

  /** A call on the task table. */
  function TaskCall(s: Store, op: Op, parse: string -> Timestamp): (r: Result<Store, DbError>)
    requires Rank(op) < 3
    ensures r.Err? <==> Raises(s, op)
    ensures r.Ok? ==> r.value == s.(tasks := r.value.tasks, clock := if op.DeleteTasks? then s.clock else s.clock + 1)
    ensures r.Ok? && op.CreateTask? ==> Insert(s.tasks, op.task.id, NewTask(op.task, parse), s.clock) == Ok(r.value.tasks)
    ensures r.Ok? && op.UpdateTask? ==> Update(s.tasks, op.taskPatch.id, f => PatchTask(f, op.taskPatch, parse), s.clock) == Ok(r.value.tasks)
    ensures r.Ok? && op.DeleteTasks? ==> r.value.tasks == DeleteMany(s.tasks, op.taskIds)
  {
    match op
    case CreateTask(c) =>
      var t :- Insert(s.tasks, c.id, NewTask(c, parse), s.clock);
      Ok(s.(tasks := t, clock := s.clock + 1))
    case UpdateTask(u) =>
      var t :- Update(s.tasks, u.id, f => PatchTask(f, u, parse), s.clock);
      Ok(s.(tasks := t, clock := s.clock + 1))
    case DeleteTasks(ids) =>
      Ok(s.(tasks := DeleteMany(s.tasks, ids)))
  }

  /** A call on the project table. */
  function ProjectCall(s: Store, op: Op): (r: Result<Store, DbError>)
    requires 3 <= Rank(op) < 6
    ensures r.Err? <==> Raises(s, op)
    ensures r.Ok? ==> r.value == s.(projects := r.value.projects, clock := if op.DeleteProjects? then s.clock else s.clock + 1)
    ensures r.Ok? && op.CreateProject? ==> Insert(s.projects, op.project.id, NewProject(op.project), s.clock) == Ok(r.value.projects)
    ensures r.Ok? && op.UpdateProject? ==> Update(s.projects, op.projectPatch.id, f => PatchProject(f, op.projectPatch), s.clock) == Ok(r.value.projects)
    ensures r.Ok? && op.DeleteProjects? ==> r.value.projects == DeleteMany(s.projects, op.projectIds)
  {
    match op
    case CreateProject(c) =>
      var t :- Insert(s.projects, c.id, NewProject(c), s.clock);
      Ok(s.(projects := t, clock := s.clock + 1))
    case UpdateProject(u) =>
      var t :- Update(s.projects, u.id, f => PatchProject(f, u), s.clock);
      Ok(s.(projects := t, clock := s.clock + 1))
    case DeleteProjects(ids) =>
      Ok(s.(projects := DeleteMany(s.projects, ids)))
  }

  /** A call on the task-type table. */
  function TaskTypeCall(s: Store, op: Op): (r: Result<Store, DbError>)
    requires 6 <= Rank(op)
    ensures r.Err? <==> Raises(s, op)
    ensures r.Ok? ==> r.value == s.(taskTypes := r.value.taskTypes, clock := if op.DeleteTaskTypes? then s.clock else s.clock + 1)
    ensures r.Ok? && op.CreateTaskType? ==> Insert(s.taskTypes, op.taskType.id, NewTaskType(op.taskType), s.clock) == Ok(r.value.taskTypes)
    ensures r.Ok? && op.UpdateTaskType? ==> Update(s.taskTypes, op.taskTypePatch.id, f => PatchTaskType(f, op.taskTypePatch), s.clock) == Ok(r.value.taskTypes)
    ensures r.Ok? && op.DeleteTaskTypes? ==> r.value.taskTypes == DeleteMany(s.taskTypes, op.taskTypeIds)
  {
    match op
    case CreateTaskType(c) =>
      var t :- Insert(s.taskTypes, c.id, NewTaskType(c), s.clock);
      Ok(s.(taskTypes := t, clock := s.clock + 1))
    case UpdateTaskType(u) =>
      var t :- Update(s.taskTypes, u.id, f => PatchTaskType(f, u), s.clock);
      Ok(s.(taskTypes := t, clock := s.clock + 1))
    case DeleteTaskTypes(ids) =>
      Ok(s.(taskTypes := DeleteMany(s.taskTypes, ids)))
  }

  /** A successful call keeps the store valid and only adds or restamps rows. */
  lemma ApplyOpStep(s: Store, op: Op, parse: string -> Timestamp)
    requires ApplyOp(s, op, parse).Ok?
    ensures StoreEvolves(s, ApplyOp(s, op, parse).value)
    ensures Valid(s) ==> Valid(ApplyOp(s, op, parse).value)
  {
    if Rank(op) < 3 {
      TaskOpStep(s, op, parse);
    } else if Rank(op) < 6 {
      ProjectOpStep(s, op, parse);
    } else {
      TaskTypeOpStep(s, op, parse);
    }
  }

  lemma TaskOpStep(s: Store, op: Op, parse: string -> Timestamp)
    requires ApplyOp(s, op, parse).Ok? && Rank(op) < 3
    ensures StoreEvolves(s, ApplyOp(s, op, parse).value)
    ensures Valid(s) ==> Valid(ApplyOp(s, op, parse).value)
  {
    var s' := ApplyOp(s, op, parse).value;
    if op.CreateTask? {
      if Valid(s) { InsertStep(s.tasks, op.task.id, NewTask(op.task, parse), s.clock); }
    } else if op.UpdateTask? {
      UpdateStep(s.tasks, op.taskPatch.id, f => PatchTask(f, op.taskPatch, parse), s.clock);
    } else {
      DeleteStep(s.tasks, op.taskIds, s.clock);
    }
    Untouched(s.projects, s.clock, s'.clock);
    Untouched(s.taskTypes, s.clock, s'.clock);
  }

  lemma ProjectOpStep(s: Store, op: Op, parse: string -> Timestamp)
    requires ApplyOp(s, op, parse).Ok? && 3 <= Rank(op) < 6
    ensures StoreEvolves(s, ApplyOp(s, op, parse).value)
    ensures Valid(s) ==> Valid(ApplyOp(s, op, parse).value)
  {
    var s' := ApplyOp(s, op, parse).value;
    if op.CreateProject? {
      if Valid(s) { InsertStep(s.projects, op.project.id, NewProject(op.project), s.clock); }
    } else if op.UpdateProject? {
      UpdateStep(s.projects, op.projectPatch.id, f => PatchProject(f, op.projectPatch), s.clock);
    } else {
      DeleteStep(s.projects, op.projectIds, s.clock);
    }
    Untouched(s.tasks, s.clock, s'.clock);
    Untouched(s.taskTypes, s.clock, s'.clock);
  }

  lemma TaskTypeOpStep(s: Store, op: Op, parse: string -> Timestamp)
    requires ApplyOp(s, op, parse).Ok? && 6 <= Rank(op)
    ensures StoreEvolves(s, ApplyOp(s, op, parse).value)
    ensures Valid(s) ==> Valid(ApplyOp(s, op, parse).value)
  {
    var s' := ApplyOp(s, op, parse).value;
    if op.CreateTaskType? {
      if Valid(s) { InsertStep(s.taskTypes, op.taskType.id, NewTaskType(op.taskType), s.clock); }
    } else if op.UpdateTaskType? {
      UpdateStep(s.taskTypes, op.taskTypePatch.id, f => PatchTaskType(f, op.taskTypePatch), s.clock);
    } else {
      DeleteStep(s.taskTypes, op.taskTypeIds, s.clock);
    }
    Untouched(s.tasks, s.clock, s'.clock);
    Untouched(s.projects, s.clock, s'.clock);
  }

  /** A table the call does not touch evolves trivially and stays valid under the later clock. */
  lemma Untouched<F>(t: Table<F>, c1: nat, c2: nat)
    requires c1 <= c2
    ensures Evolves(t, t, c1)
    ensures TableValid(t, c1) ==> TableValid(t, c2)
  {
  }

  /** How a sequence of store calls ends: all applied, or stopped at index
      `at` by `error` with the writes before it in place. */
  datatype RunOutcome = Applied(store: Store) | Aborted(store: Store, at: nat, error: DbError)

  /** The handler's loop: each call awaited in turn, the first exception
      leaving the loop. */
  function Run(s: Store, ops: seq<Op>, parse: string -> Timestamp): (r: RunOutcome)
    ensures r.Aborted? ==> r.at < |ops| && ApplyOp(r.store, ops[r.at], parse) == Err(r.error)
    decreases |ops|
  {
    if ops == [] then Applied(s)
    else
      match ApplyOp(s, ops[0], parse)
      case Err(e) => Aborted(s, 0, e)
      case Ok(s') =>
        var rest := Run(s', ops[1..], parse);
        match rest
        case Applied(t) => Applied(t)
        case Aborted(t, i, e) =>
          assert ops[1..][i] == ops[i + 1];
          Aborted(t, i + 1, e)
  }

  /** Every run, whether it completes or stops, keeps the store valid and
      only adds or restamps rows. */
  lemma {:induction false} RunKeepsValid(s: Store, ops: seq<Op>, parse: string -> Timestamp)
    ensures StoreEvolves(s, Run(s, ops, parse).store)
    ensures Valid(s) ==> Valid(Run(s, ops, parse).store)
    decreases |ops|
  {
    if ops != [] && ApplyOp(s, ops[0], parse).Ok? {
      var s' := ApplyOp(s, ops[0], parse).value;
      ApplyOpStep(s, ops[0], parse);
      RunKeepsValid(s', ops[1..], parse);
      StoreEvolvesTrans(s, s', Run(s', ops[1..], parse).store);
    } else {
      Untouched(s.tasks, s.clock, s.clock);
      Untouched(s.projects, s.clock, s.clock);
      Untouched(s.taskTypes, s.clock, s.clock);
    }
  }

  /** Where an aborted run stopped: the operations before the failing one
      all went through, and the store it leaves is the one they produced. */
  lemma {:induction false} RunStopsAtFailure(s: Store, ops: seq<Op>, parse: string -> Timestamp)
    requires Run(s, ops, parse).Aborted?
    ensures var r := Run(s, ops, parse);
      && Run(s, ops[..r.at], parse) == Applied(r.store)
      && Raises(r.store, ops[r.at])
    decreases |ops|
  {
    var r := Run(s, ops, parse);
    if r.at == 0 {
      assert ops[..0] == [];
    } else {
      var s' := ApplyOp(s, ops[0], parse).value;
      RunStopsAtFailure(s', ops[1..], parse);
      assert ops[..r.at][1..] == ops[1..][..r.at - 1];
    }
  }

  /** An outcome of a run over a suffix, seen from the whole list. */
  function Shift(o: RunOutcome, n: nat): RunOutcome
  {
    match o
    case Applied(t) => Applied(t)
    case Aborted(t, i, e) => Aborted(t, i + n, e)
  }

  /** One successful call, then the rest of the list. */
  lemma RunCons(s: Store, ops: seq<Op>, parse: string -> Timestamp)
    requires ops != [] && ApplyOp(s, ops[0], parse).Ok?
    ensures Run(s, ops, parse) == Shift(Run(ApplyOp(s, ops[0], parse).value, ops[1..], parse), 1)
  {
  }

  /** A first call that raises stops the run at once, with nothing written. */
  lemma RunConsFails(s: Store, ops: seq<Op>, parse: string -> Timestamp)
    requires ops != [] && ApplyOp(s, ops[0], parse).Err?
    ensures Run(s, ops, parse) == Aborted(s, 0, ApplyOp(s, ops[0], parse).error)
  {
  }

  /** A call that raises on the store the calls before it leave stops the
      run there: no later call is made, and that store is what the run leaves. */
  lemma {:induction false} RaiseStopsRun(s: Store, ops: seq<Op>, parse: string -> Timestamp, k: nat)
    requires k < |ops|
    requires Run(s, ops[..k], parse).Applied?
    requires Raises(Run(s, ops[..k], parse).store, ops[k])
    ensures var t := Run(s, ops[..k], parse).store;
      Run(s, ops, parse) == Aborted(t, k, ApplyOp(t, ops[k], parse).error)
  {
    var t := Run(s, ops[..k], parse).store;
    assert ops == ops[..k] + ops[k..];
    RunAppend(s, ops[..k], ops[k..], parse);
    assert ops[k..][0] == ops[k];
    RunConsFails(t, ops[k..], parse);
  }

  /** A one-call list that succeeds applies that call. */
  lemma RunSingle(s: Store, op: Op, parse: string -> Timestamp)
    requires ApplyOp(s, op, parse).Ok?
    ensures Run(s, [op], parse) == Applied(ApplyOp(s, op, parse).value)
  {
    RunCons(s, [op], parse);
    assert [op][1..] == [];
  }

  /** A one-call list whose call raises stops there and writes nothing. */
  lemma RunSingleFails(s: Store, op: Op, parse: string -> Timestamp)
    requires ApplyOp(s, op, parse).Err?
    ensures Run(s, [op], parse) == Aborted(s, 0, ApplyOp(s, op, parse).error)
  {
  }

  /** A two-call list whose calls both succeed applies one after the other. */
  lemma RunPair(s: Store, a: Op, b: Op, parse: string -> Timestamp)
    requires ApplyOp(s, a, parse).Ok? && ApplyOp(ApplyOp(s, a, parse).value, b, parse).Ok?
    ensures Run(s, [a, b], parse) == Applied(ApplyOp(ApplyOp(s, a, parse).value, b, parse).value)
  {
    RunCons(s, [a, b], parse);
    assert [a, b][1..] == [b];
    RunSingle(ApplyOp(s, a, parse).value, b, parse);
  }

  /** A two-call list whose second call raises stops at index 1, with the
      first call's write in place. */
  lemma RunPairFails(s: Store, a: Op, b: Op, parse: string -> Timestamp)
    requires ApplyOp(s, a, parse).Ok? && ApplyOp(ApplyOp(s, a, parse).value, b, parse).Err?
    ensures Run(s, [a, b], parse)
         == Aborted(ApplyOp(s, a, parse).value, 1, ApplyOp(ApplyOp(s, a, parse).value, b, parse).error)
  {
    RunCons(s, [a, b], parse);
    assert [a, b][1..] == [b];
    RunSingleFails(ApplyOp(s, a, parse).value, b, parse);
  }

  /** Running two lists back to back is running their concatenation. */
  lemma {:induction false} RunAppend(s: Store, a: seq<Op>, b: seq<Op>, parse: string -> Timestamp)
    requires Run(s, a, parse).Applied?
    ensures Run(s, a + b, parse) == Shift(Run(Run(s, a, parse).store, b, parse), |a|)
    decreases |a|
  {
    if a == [] {
      assert a + b == b;
    } else {
      var s' := ApplyOp(s, a[0], parse).value;
      RunCons(s, a, parse);
      var r1 := Run(s', a[1..], parse);
      assert r1.Applied? && r1.store == Run(s, a, parse).store;
      var x := Run(r1.store, b, parse);
      TailOfConcat(a, b);
      RunCons(s, a + b, parse);
      TailOfConcat(a, b);
      RunAppend(s', a[1..], b, parse);
      assert Run(s', a[1..] + b, parse) == Shift(x, |a| - 1);
    }
  }

  /** Creating the same id twice: the second create raises and the store
      keeps the first one's row. */
  lemma DuplicateCreate(s: Store, c1: TaskCreate, c2: TaskCreate, parse: string -> Timestamp)
    requires c1.id == c2.id && c1.id !in s.tasks
    ensures var r := Run(s, [CreateTask(c1), CreateTask(c2)], parse);
      && r.Aborted? && r.at == 1 && r.error == UniqueViolation(c1.id)
      && r.store.tasks[c1.id].fields == NewTask(c1, parse)
  {
    var s' := ApplyOp(s, CreateTask(c1), parse).value;
    assert [CreateTask(c1), CreateTask(c2)][1..] == [CreateTask(c2)];
    assert Run(s', [CreateTask(c2)], parse) == Aborted(s', 0, UniqueViolation(c1.id));
  }

  /** Deleting an id list twice leaves the store deleting it once leaves. */
  lemma DeleteTwice(s: Store, ids: seq<Id>, parse: string -> Timestamp)
    ensures Run(s, [DeleteTasks(ids), DeleteTasks(ids)], parse) == Run(s, [DeleteTasks(ids)], parse)
  {
    var s' := ApplyOp(s, DeleteTasks(ids), parse).value;
    DeleteManyIdempotent(s.tasks, ids);
    assert [DeleteTasks(ids), DeleteTasks(ids)][1..] == [DeleteTasks(ids)];
    assert Run(s', [DeleteTasks(ids)], parse) == Applied(s');
  }
}
